=== FILE: README.md ===
# Check-Inn, modelled in Dafny

Check-Inn is a desktop check-in tool. The user checks in, takes breaks and checks out. Each change of state posts a short message to WhatsApp: to the user's own chat, to a phone number, or to a named group. The app has three parts:

- A Rust host (`src-tauri/src/commands.rs`) that finds and launches a Node.js worker.
- The worker (`sidecar/index.js`). It drives a WhatsApp Web client and answers commands that arrive over a local WebSocket.
- A Svelte front end. It holds the session store, the settings store, the connection to the worker, the template helper and the module registry.

This project models the deterministic logic of those parts as immutable datatypes and pure functions. It proves what each part promises its callers.

| file | models |
|---|---|
| `wrappers.dfy` | `Option` and `Result` |
| `text.dfy` | the JavaScript string operations the code relies on: `indexOf`, `replace` with a string and with a global pattern, `split`/`join`, `trim`, `replace(/\D/g, '')`, and `String(n)` |
| `launch.dfy` | `start_sidecar`: script search, runtime choice, log file and reply; the `send_whatsapp_message` stub |
| `settings.dfy` | the settings record, its setters, and `save`/`load` through one JSON storage entry |
| `client.dfy` | the front end's worker connection: send queue, `onopen` order, status updates from events, `sendToWhatsApp` |
| `session.dfy` | the session state machine, `formatMessage`, the duration, the CSV export and the id handling of `deleteSessions` |
| `template.dfy` | `processTemplate` |
| `worker.dfy` | the worker: group classification, the `getGroups` retries, the client state (`client`, `isReady`, `lastQR`), `initWhatsApp`, `sendMessage` and `handleCommand` |
| `registry.dfy` | `getModules` (a stable in-place sort by `order`) and `registerModule` |

Outside effects become inputs:

- The filesystem is a set of directories plus a map from files to contents.
- A clock reading is an integer with its two locale strings.
- The WhatsApp client's answers (`getChats`, the browser-side lookups, `sendMessage`) are parameters.
- Whether the database can be written is a boolean.
- The socket is a `connected` flag plus a log of what was sent.

The launcher returns a launch plan instead of spawning anything.

Two behaviours of `commands.rs` are easy to miss. The model follows the code in both:

- When no script candidate exists, the launcher still spawns the runtime, with the missing resource path as its argument. It returns `Ok("Sidecar started")`. It does not report an error.
- When the log file cannot be created, no stdout/stderr redirection is set. The child then inherits the host's streams; its output is not discarded.

## Model

| member | source | states |
|---|---|---|
| `Launch.Join` | src-tauri/src/commands.rs:19-25 | the joined path is the base path followed by exactly the relative components |
| `Launch.Parent` | src-tauri/src/commands.rs:46 | a path has a parent exactly when it has a component, and joining the last component back onto the parent gives the path |
| `Launch.Fallbacks` | src-tauri/src/commands.rs:19-25 | the fallbacks are `sidecar/index.js`, `../sidecar/index.js` and `../../../sidecar/index.js` under the working directory, in that order |
| `Launch.FirstExisting` | src-tauri/src/commands.rs:27-33 | the index found is the first candidate that exists; none is found only when no candidate exists |
| `Launch.ResolveScript` | src-tauri/src/commands.rs:9-40 | an existing resource script is chosen outright; otherwise a `current_dir` failure is the error; a chosen script exists unless nothing was found, and then the four tried paths are reported |
| `Launch.SelectRuntime` | src-tauri/src/commands.rs:43-57 | a bundled runtime is an existing `node.exe` or `node` beside the script, and `node.exe` wins when both exist; the bare `node` is used exactly when the script has no parent or neither binary exists |
| `Launch.Ancestry` | src-tauri/src/commands.rs:64 | `create_dir_all` makes every non-empty prefix of the directory, the directory itself included, and nothing else |
| `Launch.ProvisionLogDir` | src-tauri/src/commands.rs:62-65 | an existing log directory is left alone; a missing one fails exactly when creation fails; on success no file changes and the directory exists |
| `Launch.StartSidecar` | src-tauri/src/commands.rs:4-108 | the launch fails exactly in the four lookup/creation failure cases; otherwise it replies `Sidecar started`, launches the resolved script under the runtime selected beside it, as the only argument, sets the no-console-window flag only on Windows, and sends both output streams to `<log dir>/sidecar.log` when that file could be created |
| `Launch.SendWhatsappMessage` | src-tauri/src/commands.rs:110-122 | the stub always answers `Ok("Message queued")` |
| `Launch.ResourceScriptWins` | src-tauri/src/commands.rs:9-15 | with the resource script present, the outcome does not depend on the working directory, and that script is launched |
| `Launch.FirstExistingFallbackChosen` | src-tauri/src/commands.rs:19-32 | without the resource script, the first existing fallback in the fixed order is launched |
| `Launch.SoleCandidateChosen` | src-tauri/src/commands.rs:9-40 | when exactly one of the four candidates exists, it is the script, whatever its position |
| `Launch.MissingScriptStillLaunches` | src-tauri/src/commands.rs:33-39 | with no candidate present the launch still succeeds, runs the missing resource path, and names all four tried paths |
| `Launch.PlatformsDifferOnlyInFlags` | src-tauri/src/commands.rs:74-104 | the Windows and Unix commands are identical except for the no-console-window flag, and both have exactly one argument |
| `Launch.LogIsFreshPerLaunch` | src-tauri/src/commands.rs:66-71 | every launch leaves an empty `sidecar.log` in the log directory, changes no other file, and points stdout and stderr at it |
| `Launch.DevelopmentTreeScript` | src-tauri/src/commands.rs:15-28 | in a development tree without the packaged script, `./sidecar/index.js` is launched with the bare `node` |
| `Launch.BundledRuntimeScript` | src-tauri/src/commands.rs:46-49 | a `node.exe` beside the script is chosen over a `node` and is run by its full path |
| `Settings.StringOrNull` | src/lib/stores/settings.svelte.ts:29 | a stored string is read back; anything else reads as `null` |
| `Settings.StringOr` | src/lib/stores/settings.svelte.ts:32 | a stored string is read back; anything else reads as the fallback |
| `Settings.BoolOrFalse` | src/lib/stores/settings.svelte.ts:30 | auto-start reads as on exactly when `true` is stored |
| `Settings.TemplateOr` | src/lib/stores/settings.svelte.ts:36-39 | a template is overwritten only by a non-empty stored string |
| `Settings.Load` | src/lib/stores/settings.svelte.ts:24-44 | a missing or unreadable entry changes nothing; otherwise each plain field takes its stored value or its `??` default, and each template is overwritten only by a non-empty stored string |
| `Settings.Save` | src/lib/stores/settings.svelte.ts:46-58 | the entry written is an object with exactly the nine setting keys |
| `Settings.SaveThenLoad` | src/lib/stores/settings.svelte.ts:29-57 | saving and loading back restores every plain field, and every template that was non-empty |
| `Settings.SaveThenLoadExact` | src/lib/stores/settings.svelte.ts:29-57 | with all templates non-empty the round trip is exact |
| `Settings.LoadOfEmptyObject` | src/lib/stores/settings.svelte.ts:29-33 | an entry without fields gives no number, auto-start off (unlike the initial on), no name, the `self` target and no group |
| `Settings.NewStore` | src/lib/stores/settings.svelte.ts:8-22 | a store holds what loading the stored entry over the defaults gives, and keeps that entry; with nothing stored it holds the defaults |
| `Settings.Commit` | src/lib/stores/settings.svelte.ts:46-58 | after a change the stored entry is the one saved from the settings in memory, and a store constructed from it later starts with those settings when every template is set |
| `Settings.SetWhatsappNumber` | src/lib/stores/settings.svelte.ts:60-63 | only the number changes, and the entry is saved |
| `Settings.RemoveWhatsappNumber` | src/lib/stores/settings.svelte.ts:65-68 | only the number changes, to `null`, and the entry is saved |
| `Settings.ToggleAutoStart` | src/lib/stores/settings.svelte.ts:70-73 | auto-start is negated, nothing else changes, and the entry is saved |
| `Settings.SetTargetType` | src/lib/stores/settings.svelte.ts:75-78 | only the target type changes, and the entry is saved |
| `Settings.SetTargetGroup` | src/lib/stores/settings.svelte.ts:80-83 | only the target group changes, and the entry is saved |
| `Settings.ToggleTwiceRestores` | src/lib/stores/settings.svelte.ts:70-73 | toggling twice restores the settings and the stored entry |
| `Settings.SetterPersists` | src/lib/stores/settings.svelte.ts:60-83 | after any setter, the stored entry loads back to exactly the settings in memory |
| `SidecarClient.Send` | src/lib/services/sidecar.svelte.ts:101-107 | while connected with an open socket the item is written out; otherwise it joins the end of the queue; nothing else changes |
| `SidecarClient.FlushQueue` | src/lib/services/sidecar.svelte.ts:117-122 | while connected, the queue ends empty and its items are written out oldest first |
| `SidecarClient.OnOpen` | src/lib/services/sidecar.svelte.ts:55-60 | on open the client is connected, the old queue goes out first, and `INIT` follows; nothing else changes |
| `SidecarClient.OnClose` | src/lib/services/sidecar.svelte.ts:71-81 | on close the client is disconnected, the queue and sent log are kept, and `start_sidecar` is invoked exactly when auto-start is on; nothing else changes |
| `SidecarClient.OnError` | src/lib/services/sidecar.svelte.ts:83-86 | an error only marks the client disconnected |
| `SidecarClient.Connect` | src/lib/services/sidecar.svelte.ts:48-95 | a new socket is not open yet; the queue survives; a failed construction marks the client disconnected and invokes `start_sidecar` exactly when auto-start is on; nothing else changes |
| `SidecarClient.StatusSurvivesReconnect` | src/lib/services/sidecar.svelte.ts:48-95 | the WhatsApp readiness, the group list, the fetching flag and the last event survive a close followed by a reconnect, which leaves the client disconnected with its queue |
| `SidecarClient.RequestGroups` | src/lib/services/sidecar.svelte.ts:109-111 | `REFRESH_GROUPS` is written out or queued like any send |
| `SidecarClient.RequestLogout` | src/lib/services/sidecar.svelte.ts:113-115 | `LOGOUT` is written out or queued like any send |
| `SidecarClient.SendAllWhileDown` | src/lib/services/sidecar.svelte.ts:101-107 | while the socket is down, successive sends queue up in call order and nothing else changes |
| `SidecarClient.Notify` | src/lib/services/sidecar.svelte.ts:25-46 | every event records its type; `READY`, `DISCONNECTED`, `QR`, `GROUPS` and `FETCHING_GROUPS` update exactly their status fields; any other type changes nothing else |
| `SidecarClient.EventsLeaveTransportAlone` | src/lib/services/sidecar.svelte.ts:25-46 | no event touches the connection, the queue or the sent log |
| `SidecarClient.QrKeepsGroups` | src/lib/services/sidecar.svelte.ts:28-36 | `QR` keeps the group list and `DISCONNECTED` empties it; both clear readiness |
| `SidecarClient.ChosenTarget` | src/lib/services/sidecar.svelte.ts:125-135 | with neither a number nor a group there is no target; otherwise a target is the group for `group` and the number for any other type, and it is never empty |
| `SidecarClient.TargetIsSelectedField` | src/lib/services/sidecar.svelte.ts:125-135 | a target is chosen exactly when the field the target type selects is non-empty |
| `SidecarClient.SendToWhatsApp` | src/lib/services/sidecar.svelte.ts:124-145 | without a target nothing happens; with one, exactly one `SEND_MESSAGE` carrying the target type, target and message is sent |
| `SidecarClient.SendToWhatsAppWhenConnected` | src/lib/services/sidecar.svelte.ts:137-144 | when connected, that one message is written out at once and the queue is untouched |
| `Session.FormatMessage` | src/lib/stores/session.svelte.ts:260-283 | an override note comes back trimmed and starting with `***`; otherwise a non-blank note ends the message on its own line, trimmed |
| `Session.OverrideIgnoresTemplate` | src/lib/stores/session.svelte.ts:262-264 | an override note gives the same message whatever the template, clock and name |
| `Session.NoteAppended` | src/lib/stores/session.svelte.ts:279-281 | without an override, the message is the filled template plus `\n` and the trimmed note exactly when the note is non-blank |
| `Session.MissingNameIsMe` | src/lib/stores/session.svelte.ts:269 | an unset or empty user name reads as `Me` |
| `Session.OnlyFirstTimeReplaced` | src/lib/stores/session.svelte.ts:274-277 | only the first `{time}` is replaced; later text is kept as it is |
| `Session.FillsFirstOfEachTag` | src/lib/stores/session.svelte.ts:269-277 | the first `{time}`, then the first `{date}`, then the first `{name}` are filled with the time, the date and the user name or `Me`; the text between them and after them, later tags included, is kept |
| `Session.EmptyTemplateIsTime` | src/lib/stores/session.svelte.ts:272 | an empty template yields the time |
| `Session.DurationMinutes` | src/lib/stores/session.svelte.ts:84 | the duration is the whole number of minutes nearest the elapsed milliseconds, with halves rounded up |
| `Session.CheckIn` | src/lib/stores/session.svelte.ts:69-77 | from any status the store is checked in from now; the report is replaced only when one is given; the check-in message is sent; consistency is kept |
| `Session.SaveSession` | src/lib/stores/session.svelte.ts:79-103 | a writable database gains exactly one row with the start, the end, the report and the elapsed time rounded to the nearest minute; otherwise nothing changes |
| `Session.CheckOut` | src/lib/stores/session.svelte.ts:206-223 | the store is reset to checked-out; a row is saved exactly when a session was started and the database is writable; the check-out message is sent |
| `Session.StartBreak` | src/lib/stores/session.svelte.ts:225-234 | only when checked in: the status becomes `break` and one open break is appended; otherwise nothing happens and nothing is sent |
| `Session.EndBreak` | src/lib/stores/session.svelte.ts:236-246 | only on a break: the status becomes checked in and only the last break gets an end; otherwise nothing happens |
| `Session.AddTask` | src/lib/stores/session.svelte.ts:248-254 | one uncompleted task is appended and the rest of the store is unchanged |
| `Session.Announce` | src/lib/stores/session.svelte.ts:256-258 | a transition's message is handed to `sendToWhatsApp`; no message sends nothing |
| `Session.InitialIsConsistent` | src/lib/stores/session.svelte.ts:19-32 | a fresh store is consistent and not connected |
| `Session.ConnectedIffStarted` | src/lib/stores/session.svelte.ts:32 | in a consistent store, `isConnected` holds exactly when a session has started |
| `Session.EndBreakClosesOpenBreak` | src/lib/stores/session.svelte.ts:239-240 | ending a break closes the break that was open, keeping its start |
| `Session.BreakRoundTrip` | src/lib/stores/session.svelte.ts:225-246 | a break started and ended returns to work with one more, closed, break |
| `Session.CheckInDuringBreakLeavesItOpen` | src/lib/stores/session.svelte.ts:69-72 | checking in during a break leaves that break open, and a later `endBreak` does nothing |
| `Session.CheckOutSavesOnlyStarted` | src/lib/stores/session.svelte.ts:207-210 | check-out adds one row exactly when a session was started and the database is writable |
| `Session.EscapeIsDoubling` | src/lib/stores/session.svelte.ts:163-165 | replacing every `"` with `""` doubles each quote character and keeps everything else |
| `Session.QuoteRoundTrip` | src/lib/stores/session.svelte.ts:163-165 | a quoted report field parses back to its text, in the field syntax of section 2 of RFC 4180 |
| `Session.ReportCell` | src/lib/stores/session.svelte.ts:163 | a string field is quoted; a missing or `null` field becomes `""` |
| `Session.ReportCells` | src/lib/stores/session.svelte.ts:159-167 | a row without a readable report has three empty cells; for a parsed report each cell is its field's quoted value until the first field that throws, and empty from that field on |
| `Session.StringFieldsAreQuoted` | src/lib/stores/session.svelte.ts:161-166 | three string fields come out quoted |
| `Session.ThrowingFieldStopsTheRow` | src/lib/stores/session.svelte.ts:160-167 | a field on which `replace` throws leaves itself and the later cells empty; earlier cells keep their values |
| `Session.RowCells` | src/lib/stores/session.svelte.ts:169 | an export line has seven cells: date, start, end or empty, duration or 0, and the three report cells |
| `Session.BuildCsv` | src/lib/stores/session.svelte.ts:152-170 | no rows gives no export; otherwise the header followed by one line per row, in order |
| `Session.FirstIndex` | src/lib/stores/session.svelte.ts:143 | the index found is an id's first occurrence |
| `Session.Dedup` | src/lib/stores/session.svelte.ts:143 | the deduplicated ids hold each input id exactly once, in order of first appearance |
| `Session.DeleteSessions` | src/lib/stores/session.svelte.ts:138-150 | no ids give no statement; otherwise the distinct ids are the parameters, with one placeholder each |
| `Session.PlaceholderCount` | src/lib/stores/session.svelte.ts:144 | the placeholder list splits on commas into exactly one `?` per parameter |
| `Session.JoinPlaceholders` | src/lib/stores/session.svelte.ts:144 | the placeholder list is `n` copies of `?` joined with commas |
| `Template.RenderTasks` | src/lib/utils/template.ts:11-13 | an empty list renders as `No tasks recorded.`; otherwise the `- t` lines are joined by line breaks |
| `Template.RenderedTasksReadBack` | src/lib/utils/template.ts:11-12 | single-line tasks render to exactly one `- t` line per task, with no trailing line break |
| `Template.ProcessTemplate` | src/lib/utils/template.ts:5-20 | a template without any of the four placeholders comes out unchanged |
| `Template.StepSubstitutes` | src/lib/utils/template.ts:16 | one global replacement turns every slot of its placeholder into the value and leaves all other text alone |
| `Template.ExpandsEveryPlaceholder` | src/lib/utils/template.ts:5-20 | with brace-free text and values, every occurrence of all four placeholders is replaced by its value |
| `Template.EarlierValuesAreExpandedLater` | src/lib/utils/template.ts:16-18 | a name `{day}` is itself expanded to the day by the later step |
| `Template.TasksAreNotExpanded` | src/lib/utils/template.ts:19 | a placeholder typed into a task stays literal, because tasks are substituted last |
| `Text.Or` | src/lib/stores/session.svelte.ts:269 | the `or` default keeps a non-empty string and replaces `null` or the empty string by the fallback |
| `Text.IndexFrom` | src/lib/stores/session.svelte.ts:275 | the occurrence found is the first at or after the start; none is found only when none exists |
| `Text.IndexOf` | src/lib/stores/session.svelte.ts:275 | no occurrence is found exactly when there is none; one found is the first |
| `Text.FirstOccurrence` | src/lib/stores/session.svelte.ts:275 | an occurrence with none before it is the one found |
| `Text.ReplaceFirst` | src/lib/stores/session.svelte.ts:275-277 | a string replacement leaves a text without the pattern unchanged |
| `Text.ReplaceFirstOnlyFirst` | src/lib/stores/session.svelte.ts:275-277 | a string replacement replaces the first occurrence and keeps every later one |
| `Text.ReplaceFirstAfterFreePrefix` | src/lib/stores/session.svelte.ts:275-277 | after text that cannot start the pattern, the occurrence that follows is the one a string replacement fills |
| `Text.ReplaceAllStep` | src/lib/utils/template.ts:16-19 | a global replacement keeps the text before the first occurrence, replaces that occurrence, and continues after it |
| `Text.ReplaceAllAbsent` | src/lib/utils/template.ts:16-19 | a global replacement leaves a text without the pattern unchanged |
| `Text.ReplaceAllIsSplitJoin` | src/lib/utils/template.ts:16-19 | a global replacement is splitting on the pattern and joining with the replacement |
| `Text.SplitThenJoin` | src/lib/utils/template.ts:12 | joining the pieces of a split with the same separator restores the text |
| `Text.SplitPiecesAreFree` | src/lib/utils/template.ts:12 | no piece of a split holds the separator |
| `Text.JoinThenSplit` | src/lib/utils/template.ts:12 | pieces free of a one-character separator split back out of their join |
| `Text.Trim` | src/lib/stores/session.svelte.ts:262 | the result is a slice of the text with only white space before and after it; it is empty exactly for a blank text, and otherwise neither starts nor ends with white space |
| `Text.TrimStart` | src/lib/stores/session.svelte.ts:262 | the result is a suffix, and only white space is removed |
| `Text.TrimEnd` | src/lib/stores/session.svelte.ts:262 | the result is a prefix, and only white space is removed |
| `Text.KeepDigits` | sidecar/index.js:322 | the result holds only digits, and every digit of the input as often as it occurs |
| `Text.KeepDigitsAppend` | sidecar/index.js:322 | digit filtering distributes over concatenation, so the digits keep their order |
| `Text.KeepDigitsFixpoint` | sidecar/index.js:322 | a text is left unchanged exactly when it is all digits |
| `Text.IntToText` | src/lib/stores/session.svelte.ts:169 | the decimal text is non-empty and starts with `-` exactly for negatives |
| `Text.IntToTextRoundTrip` | src/lib/stores/session.svelte.ts:169 | every integer's decimal text reads back as that integer |
| `Text.NatToTextRoundTrip` | src/lib/stores/session.svelte.ts:169 | every natural number's digits read back as that number |
| `Worker.GroupName` | sidecar/index.js:216 | the name is the chat name, else its title, else `Unnamed Group`, and never empty |
| `Worker.GroupOf` | sidecar/index.js:214-217 | a kept chat maps to a group exactly when it has an id object; the id is the serialized text when there is one |
| `Worker.KeptChats` | sidecar/index.js:206-213 | the kept chats are exactly the input chats that pass the group test |
| `Worker.KeptChatsAppend` | sidecar/index.js:206-213 | the filter distributes over concatenation and keeps a single chat exactly when it is a group chat, so the kept chats are the group chats in their original order and multiplicity |
| `Worker.MapGroups` | sidecar/index.js:214-217 | the map throws exactly when a kept chat lacks an id; otherwise it maps each kept chat, in order |
| `Worker.Classify` | sidecar/index.js:206-217 | filtering then mapping fails exactly when a kept chat lacks an id; otherwise there is one group per kept chat, in order |
| `Worker.KeptIffGroup` | sidecar/index.js:207-213 | a chat is kept exactly when `isGroup` is true or either serialized id ends in `@g.us` (with an id object) |
| `Worker.GetGroups` | sidecar/index.js:184-260 | a client that is not ready gives `[]` without a query; a ready one is queried at least once and at most `5 - retryCount` times |
| `Worker.RetryReturnsLaterGroups` | sidecar/index.js:219-255 | when the attempts from `retryCount` find nothing and the client stays ready, the groups found by a later attempt, up to the fifth, are returned after one query per attempt |
| `Worker.DeepSyncFillsEmptyList` | sidecar/index.js:222-241 | when the standard extraction finds no group and the browser finds some, the browser's list is returned without a retry |
| `Worker.NothingFoundMeansFiveAttempts` | sidecar/index.js:248-253 | when nothing is ever found, a ready client is queried exactly five times and the answer is empty |
| `Worker.DeepOnlyWhenEmpty` | sidecar/index.js:222 | groups found by the standard extraction are returned as they are |
| `Worker.OnClientEvent` | sidecar/index.js:152-179 | `qr` stores the code and clears readiness; `ready` records the logged-in account id on the client, sets readiness, drops the code and broadcasts the groups; `auth_failure` only reports; `disconnected` drops the client |
| `Worker.QrThenReady` | sidecar/index.js:152-161 | a code followed by a login leaves the client ready, with no code pending and with the account id of the login |
| `Worker.InitWhatsApp` | sidecar/index.js:116-182 | with a client already there nothing is created, and the sender gets `READY` (and the groups), the pending code, or nothing; without a client, one is created |
| `Worker.InitIsIdempotent` | sidecar/index.js:117-128 | a second `initWhatsApp` changes nothing |
| `Worker.ChatIdForNumber` | sidecar/index.js:322-323 | a number's chat id is its digits followed by `@c.us` |
| `Worker.ChatIdIgnoresFormatting` | sidecar/index.js:322 | non-digit characters in a number do not change its chat id |
| `Worker.FirstNamed` | sidecar/index.js:280 | the match found is the first group chat named or titled with the target; none is found only when there is none |
| `Worker.FindGroupIdByName` | sidecar/index.js:270-303 | the first matching chat's serialized id is the answer; when the fast lookup fails, finds nothing, or the match has no id, the browser lookup's truthy answer is used, else `null` |
| `Worker.SelfMessageAfterLogin` | sidecar/index.js:305-329 | after `INIT` and a login as `wid`, a `self` message goes to the chat `wid`, and a successful delivery is answered with `MSG_SENT` |
| `Worker.ChatIdFor` | sidecar/index.js:310-324 | `self` is the client's own id; `group` is the found id or a `not found` error; any other type is a number chat id |
| `Worker.SendMessage` | sidecar/index.js:305-332 | with no client nothing happens; otherwise the message goes to the chat `ChatIdFor` resolves, and exactly one reply goes to the sender: `MSG_SENT` with the target and message exactly when the delivery succeeded, else `ERROR` with the resolution or delivery error |
| `Worker.NumberTargetChatId` | sidecar/index.js:320-326 | a number target is sent to its digits at `@c.us` |
| `Worker.UnknownGroupIsReported` | sidecar/index.js:315-319 | a group that is not found is reported as an error and nothing is sent |
| `Worker.LogoutCleanup` | sidecar/index.js:61-84 | logout drops the client and clears readiness |
| `Worker.HandleCommand` | sidecar/index.js:34-111 | each command type does its own work; `LOGOUT` answers `LOGOUT_PENDING`, broadcasts `DISCONNECTED` and starts a new client; an unknown type changes nothing and writes nothing |
| `Worker.LogoutStartsAfresh` | sidecar/index.js:54-102 | after `LOGOUT` a fresh client waits for a login: not ready and without an id of its own |
| `Worker.StaleQrAfterLogout` | sidecar/index.js:81-84 | a pending code survives logout, so a later `INIT` replays the old code |
| `Worker.CoherenceKept` | sidecar/index.js:113-179 | every command and client event keeps readiness and a pending code apart |
| `Registry.Insert` | src/lib/modules/registry.ts:47 | inserting into a sorted list keeps it sorted and adds one element |
| `Registry.InsertPermutes` | src/lib/modules/registry.ts:47 | inserting adds exactly the new module and loses nothing |
| `Registry.SortByOrder` | src/lib/modules/registry.ts:47 | the sort's result is ordered by `order` and as long as its input |
| `Registry.SortPermutes` | src/lib/modules/registry.ts:47 | the sort is a permutation of its input |
| `Registry.SortIsStable` | src/lib/modules/registry.ts:47 | modules with equal `order` keep their relative order |
| `Registry.SortSortedIsIdentity` | src/lib/modules/registry.ts:47 | sorting a sorted list changes nothing |
| `Registry.GetModules` | src/lib/modules/registry.ts:46-48 | the result is sorted by `order`, is a permutation of the registered modules, keeps modules of equal order in registration order, and replaces the shared list |
| `Registry.RegisterModule` | src/lib/modules/registry.ts:50-52 | registering appends the module at the end and leaves the others in place |
| `Registry.GetModulesTwice` | src/lib/modules/registry.ts:46-48 | calling `getModules` twice gives the same list both times |
| `Registry.BuiltInOrder` | src/lib/modules/registry.ts:15-44 | initially the modules come as dashboard, stats, history, settings |
| `Registry.RegisteredGoesAfterEqualOrder` | src/lib/modules/registry.ts:42-52 | a module registered with order 99 or more is listed last, after the built-in settings module |

## Left out

- `src-tauri/src/main.rs`, `tailwind.config.js` and `scripts/download_node.js` are not part of this model. They hold window and tray wiring, styling and a download script.
- Process spawning, the spawning thread, and the `try_clone` of the log handle are not modelled; the launcher yields a plan instead. The stderr sink is taken to be the same file as stdout.
- `Launch.Join` does not normalise `..` components. `Launch.Display` writes `/` between components on every platform.
- The WebSocket server and clients are abstracted, as is the `EADDRINUSE` exit. Broadcasts are `ToAll` frames; their restriction to open sockets is not modelled.
- The client's `ws.close()` of an earlier socket, the 5-second reconnect timer, and the listener callbacks of `notifyListeners` are left out.
- Timeouts (`setTimeout`, `Promise.race`) are left out. The worker's `getChats` answers and the browser-side lookups are inputs. A timeout reads as a failed lookup.
- `Worker.GetGroups`: whether the client is still ready after the 4-second wait is an input of each attempt. Other changes to the worker state during the wait are not modelled.
- `Worker.HandleCommand`: the asynchronous parts of `LOGOUT` are taken to run to completion at once. This covers the logout race, `destroy`, the one-second wait and `fs.rm`. The re-initialisation happens immediately, and the removal of the session directory is not modelled.
- `Worker.HandleCommand`: the answers of `REFRESH_GROUPS` and the `ready` handler come from the same `getGroups` model. A rejected `getGroups` cannot happen, because the model catches everything as the source does.
- SQLite, `localStorage`, `loadState`/`saveState`, `getRecentSessions` and `getLastSessionReport` are storage I/O. The session table is a list of saved rows, and the export takes its rows as input.
- The save dialog, the browser-download fallback and the export notification after writing the file are I/O and are not modelled.
- Dates are integers (milliseconds), and the locale strings of the clock are given as parameters. The two `new Date()` readings in `checkOut`/`saveSession` are taken as one reading.
- `crypto.randomUUID` is a parameter of `Session.AddTask`.
- `Session.DurationMinutes`: elapsed time is a whole number of milliseconds. Rounding follows `Math.round` on that quotient; floating-point behaviour is not modelled.
- `Session.FormatMessage` and `Template.ExpandsEveryPlaceholder`: the `$` replacement patterns of JavaScript's `replace` are not modelled. A value is inserted literally.
- `Session.ReportCell`: every JSON number, array or object is treated as making `replace` throw. A stored `0` would in fact be written as `""`.
- `Settings.Load`: a stored value of the wrong JSON type is read as absent. JavaScript would keep it, for example a number as the user name.
- The `order` of a registry module is an integer. JavaScript numbers may be fractional or `NaN`. The Svelte component of a module is left out.
- `Session.RowCells`: a `null` date or start time is given as its printed text. The text of the row's cells is taken as given.

=== FILE: client.dfy ===
/** The front end's connection to the worker, `src/lib/services/sidecar.svelte.ts`:
    an outbound queue held while the socket is down and flushed on connect, a
    status record driven by the worker's events, and the choice of recipient
    for outgoing WhatsApp messages. The websocket is reduced to whether it is
    open and the list of messages it has carried. */
module SidecarClient {
  import opened Wrappers
  import opened Text
  import Settings

  datatype Group = Group(id: string, name: string)

  /** The commands the front end sends to the worker. */
  datatype Outbound =
    | Init
    | RefreshGroups
    | Logout
    | SendMessage(targetType: string, target: string, message: string)

  /** The payload of an incoming event, as parsed JSON. */
  datatype Payload =
    | NoPayload
    | BoolPayload(b: bool)
    | GroupsPayload(groups: seq<Group>)
    | TextPayload(s: string)

  datatype Client = Client(
    /** `ws.readyState === WebSocket.OPEN` */
    socketOpen: bool,
    isConnected: bool,
    queue: seq<Outbound>,
    /** What the socket has carried, oldest first. */
    sent: seq<Outbound>,
    isWhatsAppReady: bool,
    /** Holds whatever the last `GROUPS` event carried. */
    availableGroups: Payload,
    /** Holds whatever the last `FETCHING_GROUPS` event carried. */
    isFetchingGroups: Payload,
    lastEvent: string,
    /** How many times `start_sidecar` has been invoked. */
    startRequests: nat)

  /** The field initialisers (lines 5-19), before `connect` runs. */
  const Initial := Client(false, false, [], [], false, GroupsPayload([]), BoolPayload(false), "", 0)

  /** `send` writes to the socket immediately exactly in this state. */
  predicate Delivering(c: Client) {
    c.isConnected && c.socketOpen
  }

  // ---------------------------------------------------------------------------
  // Outbound

  /** `send` (lines 101-107). */
  function Send(c: Client, d: Outbound): (r: Client)
    ensures Delivering(c) ==> r.sent == c.sent + [d] && r.queue == c.queue
    ensures !Delivering(c) ==> r.queue == c.queue + [d] && r.sent == c.sent
    ensures r == c.(queue := r.queue, sent := r.sent)
  {
    if Delivering(c) then c.(sent := c.sent + [d]) else c.(queue := c.queue + [d])
  }

  /** `flushQueue` (lines 117-122): repeatedly shift the head and `send` it.
      It is only called once the socket is open; otherwise every shifted item
      would be queued again and the loop would not end. */
  method FlushQueue(c: Client) returns (r: Client)
    requires Delivering(c)
    ensures r.queue == []
    ensures r.sent == c.sent + c.queue
    ensures r == c.(queue := [], sent := r.sent)
  {
    r := c;
    while |r.queue| > 0
      invariant Delivering(r)
      invariant r.sent + r.queue == c.sent + c.queue
      invariant r == c.(queue := r.queue, sent := r.sent)
      decreases |r.queue|
    {
      var d := r.queue[0];
      assert r.queue == [d] + r.queue[1..];
      r := r.(queue := r.queue[1..]);
      r := Send(r, d);
    }
  }

  /** `onopen` (lines 55-60): mark connected, flush the queue, then send `INIT`. */
  method OnOpen(c: Client) returns (r: Client)
    ensures Delivering(r) && r.queue == []
    ensures r.sent == c.sent + c.queue + [Init]
    ensures r.isWhatsAppReady == c.isWhatsAppReady && r.lastEvent == c.lastEvent
    ensures r == c.(socketOpen := true, isConnected := true, queue := [], sent := c.sent + c.queue + [Init])
  {
    r := c.(socketOpen := true, isConnected := true);
    r := FlushQueue(r);
    r := Send(r, Init);
  }

  /** `onclose` (lines 71-81): disconnected, and `start_sidecar` is invoked
      again when auto-start is on. The 5 s reconnect timer is not modelled. */
  function OnClose(c: Client, autoStart: bool): (r: Client)
    ensures !Delivering(r) && r.queue == c.queue && r.sent == c.sent
    ensures r.startRequests == c.startRequests + (if autoStart then 1 else 0)
    ensures r == c.(socketOpen := r.socketOpen, isConnected := r.isConnected, startRequests := r.startRequests)
  {
    c.(socketOpen := false, isConnected := false,
       startRequests := c.startRequests + (if autoStart then 1 else 0))
  }

  /** `onerror` (lines 83-86). */
  function OnError(c: Client): (r: Client)
    ensures !Delivering(r) && r == c.(isConnected := false)
  {
    c.(isConnected := false)
  }

  /** `connect` (lines 48-95): a new socket that is not open yet; when the
      socket cannot even be constructed, `start_sidecar` is invoked if
      auto-start is on. */
  function Connect(c: Client, constructionFails: bool, autoStart: bool): (r: Client)
    ensures !r.socketOpen && !Delivering(r) && r.queue == c.queue && r.sent == c.sent
    ensures r.startRequests == c.startRequests + (if constructionFails && autoStart then 1 else 0)
    ensures constructionFails ==> !r.isConnected
    ensures !constructionFails ==> r.isConnected == c.isConnected
    ensures r == c.(socketOpen := r.socketOpen, isConnected := r.isConnected, startRequests := r.startRequests)
  {
    if constructionFails then
      c.(socketOpen := false, isConnected := false,
         startRequests := c.startRequests + (if autoStart then 1 else 0))
    else c.(socketOpen := false)
  }

  /** Losing the worker and reconnecting keeps what the front end knows of
      WhatsApp: readiness, the group list, the fetching flag and the last
      event all survive `onclose` followed by `connect`. */
  lemma StatusSurvivesReconnect(c: Client, autoStart: bool, constructionFails: bool)
    ensures var r := Connect(OnClose(c, autoStart), constructionFails, autoStart);
      && r.isWhatsAppReady == c.isWhatsAppReady && r.availableGroups == c.availableGroups
      && r.isFetchingGroups == c.isFetchingGroups && r.lastEvent == c.lastEvent
      && !r.isConnected && r.queue == c.queue
  {
  }

  /** `refreshGroups` (lines 109-111): a plain send, written out or queued. */
  function RequestGroups(c: Client): (r: Client)
    ensures Delivering(c) ==> r == c.(sent := c.sent + [RefreshGroups])
    ensures !Delivering(c) ==> r == c.(queue := c.queue + [RefreshGroups])
  {
    Send(c, RefreshGroups)
  }

  /** `logout` (lines 113-115): a plain send, written out or queued. */
  function RequestLogout(c: Client): (r: Client)
    ensures Delivering(c) ==> r == c.(sent := c.sent + [Logout])
    ensures !Delivering(c) ==> r == c.(queue := c.queue + [Logout])
  {
    Send(c, Logout)
  }

  function SendAll(c: Client, ds: seq<Outbound>): Client
    decreases |ds|
  {
    if |ds| == 0 then c else SendAll(Send(c, ds[0]), ds[1..])
  }

  /** While the socket is down, sends append to the queue in call order. */
  lemma {:induction false} SendAllWhileDown(c: Client, ds: seq<Outbound>)
    requires !Delivering(c)
    ensures SendAll(c, ds).queue == c.queue + ds
    ensures SendAll(c, ds) == c.(queue := c.queue + ds)
    decreases |ds|
  {
    if |ds| > 0 {
      var c' := Send(c, ds[0]);
      SendAllWhileDown(c', ds[1..]);
      assert c.queue + [ds[0]] + ds[1..] == c.queue + ds;
    }
  }

  // ---------------------------------------------------------------------------
  // Incoming events

  /** `notifyListeners` (lines 25-46) minus the callbacks. */
  function Notify(c: Client, kind: string, payload: Payload): (r: Client)
    ensures r.lastEvent == kind
    ensures kind == "READY" ==> r == c.(lastEvent := kind, isWhatsAppReady := true)
    ensures kind == "DISCONNECTED" ==>
      r == c.(lastEvent := kind, isWhatsAppReady := false,
              availableGroups := GroupsPayload([]), isFetchingGroups := BoolPayload(false))
    ensures kind == "QR" ==>
      r == c.(lastEvent := kind, isWhatsAppReady := false, isFetchingGroups := BoolPayload(false))
    ensures kind == "GROUPS" ==>
      r == c.(lastEvent := kind, availableGroups := payload, isFetchingGroups := BoolPayload(false))
    ensures kind == "FETCHING_GROUPS" ==> r == c.(lastEvent := kind, isFetchingGroups := payload)
    ensures kind !in {"READY", "DISCONNECTED", "QR", "GROUPS", "FETCHING_GROUPS"} ==> r == c.(lastEvent := kind)
  {
    var c1 := c.(lastEvent := kind);
    if kind == "READY" then c1.(isWhatsAppReady := true)
    else if kind == "DISCONNECTED" then
      c1.(isWhatsAppReady := false, availableGroups := GroupsPayload([]), isFetchingGroups := BoolPayload(false))
    else if kind == "QR" then c1.(isWhatsAppReady := false, isFetchingGroups := BoolPayload(false))
    else if kind == "GROUPS" then c1.(availableGroups := payload, isFetchingGroups := BoolPayload(false))
    else if kind == "FETCHING_GROUPS" then c1.(isFetchingGroups := payload)
    else c1
  }

  /** Events only touch the status record: the connection, the queue and
      what has been sent are left alone. */
  lemma EventsLeaveTransportAlone(c: Client, kind: string, payload: Payload)
    ensures var r := Notify(c, kind, payload);
      r.socketOpen == c.socketOpen && r.isConnected == c.isConnected
      && r.queue == c.queue && r.sent == c.sent && r.startRequests == c.startRequests
  {
  }

  /** A `QR` event keeps the group list; a `DISCONNECTED` event empties it. */
  lemma QrKeepsGroups(c: Client, p: Payload, q: Payload)
    ensures Notify(c, "QR", p).availableGroups == c.availableGroups
    ensures Notify(c, "DISCONNECTED", q).availableGroups == GroupsPayload([])
    ensures !Notify(c, "QR", p).isWhatsAppReady && !Notify(c, "DISCONNECTED", q).isWhatsAppReady
  {
  }

  // ---------------------------------------------------------------------------
  // Outgoing WhatsApp messages

  /** The recipient `sendToWhatsApp` picks (lines 125-135): nothing when
      neither a number nor a group is configured, else the group when the
      target type is `'group'` and the number otherwise, provided that one is
      set. */
  function ChosenTarget(s: Settings.AppSettings): (t: Option<string>)
    ensures !Truthy(s.whatsappNumber) && !Truthy(s.targetGroup) ==> t == None
    ensures t.Some? ==> t.value != ""
    ensures t.Some? && s.targetType == Settings.GroupTarget ==> Some(t.value) == s.targetGroup
    ensures t.Some? && s.targetType != Settings.GroupTarget ==> Some(t.value) == s.whatsappNumber
  {
    if !Truthy(s.whatsappNumber) && !Truthy(s.targetGroup) then None
    else
      var target := if s.targetType == Settings.GroupTarget then s.targetGroup else s.whatsappNumber;
      if Truthy(target) then Some(target.value) else None
  }

  /** The first guard adds nothing: a target is chosen exactly when the field
      the target type selects is set. */
  lemma TargetIsSelectedField(s: Settings.AppSettings)
    ensures ChosenTarget(s).Some? <==>
      Truthy(if s.targetType == Settings.GroupTarget then s.targetGroup else s.whatsappNumber)
  {
  }

  /** `sendToWhatsApp` (lines 124-145). */
  function SendToWhatsApp(c: Client, s: Settings.AppSettings, message: string): (r: Client)
    ensures ChosenTarget(s).None? ==> r == c
    ensures ChosenTarget(s).Some? ==>
      r == Send(c, SendMessage(s.targetType, ChosenTarget(s).value, message))
  {
    match ChosenTarget(s)
    case None => c
    case Some(target) => Send(c, SendMessage(s.targetType, target, message))
  }

  /** When connected, one message goes out with the configured target type,
      and its target is the group exactly when that type is `'group'`. */
  lemma SendToWhatsAppWhenConnected(c: Client, s: Settings.AppSettings, message: string)
    requires Delivering(c) && ChosenTarget(s).Some?
    ensures var r := SendToWhatsApp(c, s, message);
      && |r.sent| == |c.sent| + 1 && r.queue == c.queue
      && r.sent[|c.sent|].SendMessage?
      && r.sent[|c.sent|].targetType == s.targetType
      && r.sent[|c.sent|].message == message
      && (s.targetType == Settings.GroupTarget ==> Some(r.sent[|c.sent|].target) == s.targetGroup)
      && (s.targetType != Settings.GroupTarget ==> Some(r.sent[|c.sent|].target) == s.whatsappNumber)
  {
  }
}

=== FILE: launch.dfy ===
/** The host-side sidecar launcher of `src-tauri/src/commands.rs`: where the
    worker script is looked for, which runtime runs it, where its output is
    logged, and what the two Tauri commands answer. The OS spawn itself is not
    performed: `StartSidecar` returns the launch plan it would hand to the OS. */
module Launch {
  import opened Wrappers
  import opened Text

  // ---------------------------------------------------------------------------
  // Paths and the filesystem

  /** A filesystem path as its list of components. */
  datatype Path = Path(parts: seq<string>)

  /** `PathBuf::join` of a relative path: components are appended and `..`
      is kept as a component, not normalised away. */
  function Join(base: Path, rel: seq<string>): (p: Path)
    ensures |p.parts| == |base.parts| + |rel|
    ensures p.parts[..|base.parts|] == base.parts && p.parts[|base.parts|..] == rel
  {
    Path(base.parts + rel)
  }

  /** `Path::parent`: the path without its last component; a path with no
      components has no parent. */
  function Parent(p: Path): (r: Option<Path>)
    ensures r.Some? <==> |p.parts| > 0
    ensures r.Some? ==> Join(r.value, [p.parts[|p.parts| - 1]]) == p
  {
    if |p.parts| == 0 then None else Some(Path(p.parts[..|p.parts| - 1]))
  }

  /** `to_string_lossy` of a path. */
  function Display(p: Path): string {
    JoinWith(p.parts, "/")
  }

  /** The part of the filesystem the launcher can observe: which paths are
      directories and which are files, with their contents. `Exists` is the
      answer `Path::exists` gives for the literal path (the OS resolves `..`). */
  datatype Fs = Fs(dirs: set<Path>, files: map<Path, string>)

  predicate Exists(fs: Fs, p: Path) {
    p in fs.dirs || p in fs.files
  }

  // ---------------------------------------------------------------------------
  // Fixed names

  /** The worker script, relative to the resource directory or a working-directory root. */
  const ScriptRel: seq<string> := ["sidecar", "index.js"]

  /** The working-directory-relative fallbacks, in the order they are tried:
      the project root, its child `src-tauri`, and `target/release` below it. */
  const FallbackRels: seq<seq<string>> := [
    ["sidecar", "index.js"],
    ["..", "sidecar", "index.js"],
    ["..", "..", "..", "sidecar", "index.js"]
  ]

  const WindowsRuntime := "node.exe"
  const UnixRuntime := "node"
  /** The bare program name the OS looks up on its search path. */
  const SearchPathRuntime := "node"
  const LogFileName := "sidecar.log"
  /** The Windows process-creation flag that suppresses the console window. */
  const CreateNoWindow: nat := 0x0800_0000

  const StartedReply := "Sidecar started"
  const QueuedReply := "Message queued"

  // ---------------------------------------------------------------------------
  // Script resolution

  /** `cwd/sidecar/index.js`, `cwd/../sidecar/index.js` and
      `cwd/../../../sidecar/index.js`, in the order lines 27-32 try them. */
  function Fallbacks(cwd: Path): (c: seq<Path>)
    ensures |c| == 3
    ensures c[0].parts == cwd.parts + ["sidecar", "index.js"]
    ensures c[1].parts == cwd.parts + ["..", "sidecar", "index.js"]
    ensures c[2].parts == cwd.parts + ["..", "..", "..", "sidecar", "index.js"]
  {
    [Join(cwd, FallbackRels[0]), Join(cwd, FallbackRels[1]), Join(cwd, FallbackRels[2])]
  }

  /** The index of the first existing candidate. */
  function FirstExisting(fs: Fs, candidates: seq<Path>): (r: Option<nat>)
    ensures r.None? <==> forall k :: 0 <= k < |candidates| ==> !Exists(fs, candidates[k])
    ensures r.Some? ==> r.value < |candidates| && Exists(fs, candidates[r.value])
    ensures r.Some? ==> forall k :: 0 <= k < r.value ==> !Exists(fs, candidates[k])
  {
    if |candidates| == 0 then None
    else if Exists(fs, candidates[0]) then Some(0)
    else
      match FirstExisting(fs, candidates[1..])
      case None => None
      case Some(k) => Some(k + 1)
  }

  /** The chosen script and, when nothing was found, the four paths named in
      the console debug line. */
  datatype Resolution = Resolution(script: Path, notFound: Option<seq<Path>>)

  /** Lines 9-40: the resource-directory script if it exists, else the first
      existing fallback, else the resource path itself (with a debug line).
      The working directory is only consulted when the resource path is missing. */
  function ResolveScript(fs: Fs, resource: Path, cwd: Result<Path>): (r: Result<Resolution>)
    ensures Exists(fs, resource) ==> r == Ok(Resolution(resource, None))
    ensures !Exists(fs, resource) && cwd.Err? ==> r == Err(cwd.error)
    ensures r.Ok? && r.value.notFound.None? ==> Exists(fs, r.value.script)
    ensures r.Ok? && r.value.notFound.Some? ==>
      r.value.script == resource && r.value.notFound.value == [resource] + Fallbacks(cwd.value)
      && forall p :: p in r.value.notFound.value ==> !Exists(fs, p)
  {
    if Exists(fs, resource) then Ok(Resolution(resource, None))
    else if cwd.Err? then Err(cwd.error)
    else
      var candidates := Fallbacks(cwd.value);
      match FirstExisting(fs, candidates)
      case Some(k) => Ok(Resolution(candidates[k], None))
      case None => Ok(Resolution(resource, Some([resource] + candidates)))
  }

  // ---------------------------------------------------------------------------
  // Runtime selection

  /** A runtime binary found beside the script, or the bare name `node` for
      the OS to find on its search path at spawn time. */
  datatype Runtime = Bundled(binary: Path) | FromSearchPath

  function Program(rt: Runtime): string {
    match rt
    case Bundled(b) => Display(b)
    case FromSearchPath => SearchPathRuntime
  }

  /** Lines 43-57. */
  function SelectRuntime(fs: Fs, script: Path): (rt: Runtime)
    ensures rt.Bundled? ==> Exists(fs, rt.binary) && Parent(script).Some?
    ensures rt.Bundled? ==>
      rt.binary == Join(Parent(script).value, [WindowsRuntime]) || rt.binary == Join(Parent(script).value, [UnixRuntime])
    ensures Parent(script).Some? && Exists(fs, Join(Parent(script).value, [WindowsRuntime])) ==>
      rt == Bundled(Join(Parent(script).value, [WindowsRuntime]))
    ensures rt.FromSearchPath? <==>
      (Parent(script).None?
       || (!Exists(fs, Join(Parent(script).value, [WindowsRuntime]))
           && !Exists(fs, Join(Parent(script).value, [UnixRuntime]))))
  {
    match Parent(script)
    case None => FromSearchPath
    case Some(dir) =>
      if Exists(fs, Join(dir, [WindowsRuntime])) then Bundled(Join(dir, [WindowsRuntime]))
      else if Exists(fs, Join(dir, [UnixRuntime])) then Bundled(Join(dir, [UnixRuntime]))
      else FromSearchPath
  }

  // ---------------------------------------------------------------------------
  // Log provisioning

  /** The directories `create_dir_all` makes for `dir`: every non-empty prefix. */
  function Ancestry(dir: Path): (a: set<Path>)
    ensures dir.parts != [] ==> dir in a
    ensures forall k :: 1 <= k <= |dir.parts| ==> Path(dir.parts[..k]) in a
    ensures forall p :: p in a ==> |p.parts| >= 1 && p.parts <= dir.parts
  {
    var a := set k | 1 <= k <= |dir.parts| :: Path(dir.parts[..k]);
    assert dir.parts[..|dir.parts|] == dir.parts;
    assert dir.parts != [] ==> Path(dir.parts[..|dir.parts|]) in a;
    a
  }

  /** Lines 62-65: the log directory is created, ancestors included, only
      when it is missing; a creation failure aborts the command. */
  function ProvisionLogDir(fs: Fs, dir: Path, createError: Option<string>): (r: Result<Fs>)
    ensures Exists(fs, dir) ==> r == Ok(fs)
    ensures !Exists(fs, dir) ==> (r.Err? <==> createError.Some?)
    ensures r.Ok? ==> fs.files == r.value.files && fs.dirs <= r.value.dirs
    ensures r.Ok? && dir.parts != [] ==> Exists(r.value, dir)
  {
    if Exists(fs, dir) then Ok(fs)
    else if createError.Some? then Err(createError.value)
    else Ok(Fs(fs.dirs + Ancestry(dir), fs.files))
  }

  // ---------------------------------------------------------------------------
  // The launch

  datatype Platform = Windows | Unix

  /** The child process as handed to the OS. */
  datatype Command = Command(
    program: string,
    args: seq<string>,
    creationFlags: nat,
    stdout: Option<Path>,
    stderr: Option<Path>)

  /** What one `start_sidecar` call decides: the script and runtime, the log
      file, the command spawned on the background thread, the filesystem
      afterwards, the debug line's paths when no script was found, and the
      reply to the UI. */
  datatype LaunchPlan = LaunchPlan(
    script: Path,
    runtime: Runtime,
    logPath: Path,
    command: Command,
    fsAfter: Fs,
    notFound: Option<seq<Path>>,
    reply: string)

  /** The host facts `start_sidecar` consults; each lookup that can fail
      carries its error message. `logFileCreatable` is whether
      `File::create` succeeds on the log path. */
  datatype Host = Host(
    resourceDir: Result<Path>,
    cwd: Result<Path>,
    logDir: Result<Path>,
    createDirError: Option<string>,
    logFileCreatable: bool,
    platform: Platform)

  function LogPath(logDir: Path): Path {
    Join(logDir, [LogFileName])
  }

  /** Lines 69-105: the spawned command, with the console window suppressed on
      Windows and both output streams on the log file when it could be created. */
  function SpawnCommand(rt: Runtime, script: Path, logPath: Path, logOk: bool, platform: Platform): Command {
    var sink := if logOk then Some(logPath) else None;
    Command(
      Program(rt),
      [Display(script)],
      if platform == Windows then CreateNoWindow else 0,
      sink,
      sink)
  }

  function ResourceScript(resDir: Path): Path {
    Join(resDir, ScriptRel)
  }

  /** The four ways `start_sidecar` can return an error: the resource lookup,
      `current_dir` (only asked when the resource script is missing),
      `app_log_dir`, and `create_dir_all` (only run when the log directory is
      missing). */
  predicate LaunchFails(host: Host, fs: Fs) {
    || host.resourceDir.Err?
    || (!Exists(fs, ResourceScript(host.resourceDir.value)) && host.cwd.Err?)
    || host.logDir.Err?
    || (!Exists(fs, host.logDir.value) && host.createDirError.Some?)
  }

  /** `start_sidecar` (lines 4-108). */
  function StartSidecar(host: Host, fs: Fs): (r: Result<LaunchPlan>)
    ensures r.Err? <==> LaunchFails(host, fs)
    ensures r.Ok? ==> r.value.reply == StartedReply
    ensures r.Ok? ==> r.value.command.program == Program(r.value.runtime)
    ensures r.Ok? ==> r.value.command.args == [Display(r.value.script)]
    ensures r.Ok? ==> r.value.logPath == Join(host.logDir.value, [LogFileName])
    ensures r.Ok? ==> ResolveScript(fs, ResourceScript(host.resourceDir.value), host.cwd)
                      == Ok(Resolution(r.value.script, r.value.notFound))
    ensures r.Ok? ==> r.value.runtime == SelectRuntime(fs, r.value.script)
    ensures r.Ok? ==> r.value.command.creationFlags == (if host.platform == Windows then CreateNoWindow else 0)
    ensures r.Ok? ==> r.value.command.stdout == r.value.command.stderr
                      == (if host.logFileCreatable then Some(r.value.logPath) else None)
  {
    match host.resourceDir
    case Err(e) => Err(e)
    case Ok(resDir) =>
      match ResolveScript(fs, ResourceScript(resDir), host.cwd)
      case Err(e) => Err(e)
      case Ok(res) =>
        var rt := SelectRuntime(fs, res.script);
        match host.logDir
        case Err(e) => Err(e)
        case Ok(logDir) =>
          match ProvisionLogDir(fs, logDir, host.createDirError)
          case Err(e) => Err(e)
          case Ok(fs1) =>
            var logPath := LogPath(logDir);
            var fs2 := if host.logFileCreatable then Fs(fs1.dirs, fs1.files[logPath := ""]) else fs1;
            Ok(LaunchPlan(
              res.script,
              rt,
              logPath,
              SpawnCommand(rt, res.script, logPath, host.logFileCreatable, host.platform),
              fs2,
              res.notFound,
              StartedReply))
  }

  /** `send_whatsapp_message` (lines 110-122): a stub that accepts anything. */
  function SendWhatsappMessage(number: string, message: string): (r: Result<string>)
    ensures r.Ok? && r.value == QueuedReply
  {
    Ok(QueuedReply)
  }

  // ---------------------------------------------------------------------------
  // Properties of a launch

  /** An existing resource-directory script is chosen without looking at the
      working directory: the plan is the same whatever `current_dir` says. */
  lemma ResourceScriptWins(host: Host, fs: Fs, otherCwd: Result<Path>)
    requires host.resourceDir.Ok? && Exists(fs, ResourceScript(host.resourceDir.value))
    ensures StartSidecar(host, fs) == StartSidecar(host.(cwd := otherCwd), fs)
    ensures StartSidecar(host, fs).Ok? ==>
      StartSidecar(host, fs).value.script == ResourceScript(host.resourceDir.value)
      && StartSidecar(host, fs).value.notFound.None?
  {
  }

  /** Otherwise the first existing fallback, in the fixed order, is chosen. */
  lemma FirstExistingFallbackChosen(host: Host, fs: Fs, k: nat)
    requires host.resourceDir.Ok? && !Exists(fs, ResourceScript(host.resourceDir.value))
    requires host.cwd.Ok? && k < 3
    requires Exists(fs, Fallbacks(host.cwd.value)[k])
    requires forall j :: 0 <= j < k ==> !Exists(fs, Fallbacks(host.cwd.value)[j])
    ensures StartSidecar(host, fs).Ok? ==>
      StartSidecar(host, fs).value.script == Fallbacks(host.cwd.value)[k]
      && StartSidecar(host, fs).value.notFound.None?
  {
    var r := FirstExisting(fs, Fallbacks(host.cwd.value));
    assert r == Some(k);
  }

  /** With exactly one candidate present, that candidate is the script,
      whichever position it holds. */
  lemma SoleCandidateChosen(fs: Fs, resDir: Path, cwd: Path, p: Path)
    requires p in [ResourceScript(resDir)] + Fallbacks(cwd) && Exists(fs, p)
    requires forall q :: q in [ResourceScript(resDir)] + Fallbacks(cwd) && q != p ==> !Exists(fs, q)
    ensures ResolveScript(fs, ResourceScript(resDir), Ok(cwd)) == Ok(Resolution(p, None))
  {
    var c := Fallbacks(cwd);
    if !Exists(fs, ResourceScript(resDir)) {
      var k := FirstExisting(fs, c).value;
      assert c[k] == p;
    }
  }

  /** When no candidate exists the launch still goes ahead, with the missing
      resource path as the script argument, the four attempted paths in the
      debug line, and the usual success reply. */
  lemma MissingScriptStillLaunches(host: Host, fs: Fs)
    requires host.resourceDir.Ok? && host.cwd.Ok? && host.logDir.Ok?
    requires Exists(fs, host.logDir.value) || host.createDirError.None?
    requires forall q :: q in [ResourceScript(host.resourceDir.value)] + Fallbacks(host.cwd.value) ==> !Exists(fs, q)
    ensures StartSidecar(host, fs).Ok?
    ensures StartSidecar(host, fs).value.script == ResourceScript(host.resourceDir.value)
    ensures StartSidecar(host, fs).value.command.args == [Display(ResourceScript(host.resourceDir.value))]
    ensures StartSidecar(host, fs).value.notFound
         == Some([ResourceScript(host.resourceDir.value)] + Fallbacks(host.cwd.value))
    ensures StartSidecar(host, fs).value.reply == StartedReply
  {
    var c := Fallbacks(host.cwd.value);
    assert forall k :: 0 <= k < |c| ==> c[k] in [ResourceScript(host.resourceDir.value)] + c;
  }

  /** The two platform branches spawn the same program with the same single
      argument and log sinks; only Windows sets the no-console-window flag. */
  lemma PlatformsDifferOnlyInFlags(host: Host, fs: Fs)
    ensures StartSidecar(host.(platform := Windows), fs).Ok? <==> StartSidecar(host.(platform := Unix), fs).Ok?
    ensures StartSidecar(host.(platform := Windows), fs).Ok? ==>
      var w := StartSidecar(host.(platform := Windows), fs).value.command;
      var u := StartSidecar(host.(platform := Unix), fs).value.command;
      && w == u.(creationFlags := CreateNoWindow)
      && u.creationFlags == 0
      && |w.args| == 1
  {
  }

  /** Each launch leaves an empty log file at `<log dir>/sidecar.log`, whatever
      an earlier launch wrote there, and no other file changes. */
  lemma LogIsFreshPerLaunch(host: Host, fs: Fs)
    requires StartSidecar(host, fs).Ok? && host.logFileCreatable
    ensures var plan := StartSidecar(host, fs).value;
      && plan.logPath == Join(host.logDir.value, [LogFileName])
      && plan.fsAfter.files.Keys == fs.files.Keys + {plan.logPath}
      && plan.fsAfter.files[plan.logPath] == ""
      && (forall q :: q in fs.files && q != plan.logPath ==> plan.fsAfter.files[q] == fs.files[q])
      && plan.command.stdout == Some(plan.logPath) && plan.command.stderr == Some(plan.logPath)
      && (host.logDir.value.parts != [] ==> Exists(plan.fsAfter, host.logDir.value))
  {
  }

  /** Scenario: the packaged script is absent and `./sidecar/index.js` exists. */
  lemma DevelopmentTreeScript()
    ensures var fs := Fs({}, map[Path([".", "sidecar", "index.js"]) := "..."]);
      var host := Host(Ok(Path(["pkg", "res"])), Ok(Path(["."])), Ok(Path(["logs"])), None, true, Unix);
      StartSidecar(host, fs).Ok?
      && StartSidecar(host, fs).value.script == Path([".", "sidecar", "index.js"])
      && StartSidecar(host, fs).value.runtime == FromSearchPath
      && StartSidecar(host, fs).value.command.program == "node"
  {
    var dev := Path([".", "sidecar", "index.js"]);
    var fs := Fs({}, map[dev := "..."]);
    var resource := ResourceScript(Path(["pkg", "res"]));
    assert resource.parts[0] == "pkg";
    assert !Exists(fs, resource);
    assert Fallbacks(Path(["."]))[0] == dev;
    assert ResolveScript(fs, resource, Ok(Path(["."]))) == Ok(Resolution(dev, None));
    assert Join(Path([".", "sidecar"]), [WindowsRuntime]).parts[2] == "node.exe";
    assert Join(Path([".", "sidecar"]), [UnixRuntime]).parts[2] == "node";
    assert SelectRuntime(fs, dev) == FromSearchPath;
  }

  /** Scenario: a `node.exe` beside the packaged script is run by its full path. */
  lemma BundledRuntimeScript()
    ensures var script := Path(["app", "sidecar", "index.js"]);
      var exe := Path(["app", "sidecar", "node.exe"]);
      var fs := Fs({}, map[script := "...", exe := "", Path(["app", "sidecar", "node"]) := ""]);
      SelectRuntime(fs, script) == Bundled(exe)
      && Program(SelectRuntime(fs, script)) == "app/sidecar/node.exe"
  {
    var script := Path(["app", "sidecar", "index.js"]);
    var exe := Path(["app", "sidecar", "node.exe"]);
    assert script.parts[..2] == ["app", "sidecar"];
    assert Parent(script) == Some(Path(["app", "sidecar"]));
    assert Join(Path(["app", "sidecar"]), [WindowsRuntime]) == exe;
    assert JoinWith(["node.exe"], "/") == "node.exe";
    assert JoinWith(["sidecar", "node.exe"], "/") == "sidecar/node.exe";
    assert JoinWith(["app", "sidecar", "node.exe"], "/") == "app/sidecar/node.exe";
  }
}

=== FILE: registry.dfy ===
/** The module registry of `src/lib/modules/registry.ts`: a shared list of
    navigation modules, appended to by `registerModule` and sorted in place
    by `order` each time `getModules` is called. The sort is
    `Array.prototype.sort`, which is stable, with the comparator
    `a.order - b.order`. */
module Registry {

  /** A navigation module; the Svelte component it shows is left out. */
  datatype Module = Module(id: string, name: string, icon: string, order: int)

  predicate Sorted(s: seq<Module>) {
    forall i, j :: 0 <= i < j < |s| ==> s[i].order <= s[j].order
  }

  /** Every module of `s` has order at least `k`. */
  predicate AllAtLeast(s: seq<Module>, k: int) {
    forall i :: 0 <= i < |s| ==> k <= s[i].order
  }

  /** Places `x` into a sorted list after every module whose order is not
      greater than its own. */
  function Insert(x: Module, s: seq<Module>): (r: seq<Module>)
    requires Sorted(s)
    ensures Sorted(r) && |r| == |s| + 1
    ensures r[0] == x || (|s| > 0 && r[0] == s[0])
    decreases |s|
  {
    if |s| == 0 then [x]
    else if x.order < s[0].order then [x] + s
    else [s[0]] + Insert(x, s[1..])
  }

  /** Inserting adds exactly `x` and loses nothing. */
  lemma {:induction false} InsertPermutes(x: Module, s: seq<Module>)
    requires Sorted(s)
    ensures multiset(Insert(x, s)) == multiset(s) + multiset{x}
    decreases |s|
  {
    if |s| > 0 && x.order >= s[0].order {
      InsertPermutes(x, s[1..]);
      assert s == [s[0]] + s[1..];
    }
  }

  /** The stable sort by `order`: each module in turn is inserted into the
      sorted list of those before it. */
  function SortByOrder(s: seq<Module>): (r: seq<Module>)
    ensures Sorted(r) && |r| == |s|
    decreases |s|
  {
    if |s| == 0 then [] else Insert(s[|s| - 1], SortByOrder(s[..|s| - 1]))
  }

  /** The sort is a permutation of its input. */
  lemma {:induction false} SortPermutes(s: seq<Module>)
    ensures multiset(SortByOrder(s)) == multiset(s)
    decreases |s|
  {
    if |s| > 0 {
      var init := s[..|s| - 1];
      SortPermutes(init);
      InsertPermutes(s[|s| - 1], SortByOrder(init));
      LastSplit(s);
    }
  }

  lemma LastSplit(s: seq<Module>)
    requires |s| > 0
    ensures multiset(s) == multiset(s[..|s| - 1]) + multiset{s[|s| - 1]}
  {
    assert s == s[..|s| - 1] + [s[|s| - 1]];
  }

  // ---------------------------------------------------------------------------
  // Stability and idempotence

  /** The modules of `s` whose order is `k`, in their order in `s`. */
  function WithOrder(s: seq<Module>, k: int): (r: seq<Module>)
    ensures |r| <= |s|
    ensures forall i :: 0 <= i < |r| ==> r[i].order == k
    decreases |s|
  {
    if |s| == 0 then []
    else if s[0].order == k then [s[0]] + WithOrder(s[1..], k)
    else WithOrder(s[1..], k)
  }

  lemma {:induction false} WithOrderAppend(a: seq<Module>, b: seq<Module>, k: int)
    ensures WithOrder(a + b, k) == WithOrder(a, k) + WithOrder(b, k)
    decreases |a|
  {
    if |a| == 0 {
      assert a + b == b;
    } else {
      assert (a + b)[0] == a[0];
      assert (a + b)[1..] == a[1..] + b;
      WithOrderAppend(a[1..], b, k);
    }
  }

  /** A list whose modules all have order above `k` holds none of order `k`. */
  lemma {:induction false} NoneBelow(s: seq<Module>, k: int)
    requires AllAtLeast(s, k + 1)
    ensures WithOrder(s, k) == []
    decreases |s|
  {
    if |s| > 0 {
      NoneBelow(s[1..], k);
    }
  }

  /** Inserting adds `x` behind the modules of its own order that were there. */
  lemma {:induction false} InsertKeepsEqualOrder(x: Module, s: seq<Module>, k: int)
    requires Sorted(s)
    ensures WithOrder(Insert(x, s), k) == WithOrder(s, k) + (if x.order == k then [x] else [])
    decreases |s|
  {
    if |s| == 0 {
      assert WithOrder([x], k) == (if x.order == k then [x] else []) + WithOrder([], k);
    } else if x.order < s[0].order {
      if x.order == k {
        assert AllAtLeast(s, k + 1);
        NoneBelow(s, k);
      }
      assert ([x] + s)[1..] == s;
    } else {
      InsertKeepsEqualOrder(x, s[1..], k);
      assert ([s[0]] + Insert(x, s[1..]))[1..] == Insert(x, s[1..]);
    }
  }

  /** The sort is stable: the modules of any one order keep their relative
      order. */
  lemma {:induction false} SortIsStable(s: seq<Module>, k: int)
    ensures WithOrder(SortByOrder(s), k) == WithOrder(s, k)
    decreases |s|
  {
    if |s| > 0 {
      var init := s[..|s| - 1];
      var x := s[|s| - 1];
      SortIsStable(init, k);
      InsertKeepsEqualOrder(x, SortByOrder(init), k);
      assert s == init + [x];
      WithOrderAppend(init, [x], k);
      assert [x][1..] == [];
    }
  }

  /** A module whose order is not below any in a sorted list goes last. */
  lemma {:induction false} InsertAtEnd(x: Module, s: seq<Module>)
    requires Sorted(s)
    requires forall i :: 0 <= i < |s| ==> s[i].order <= x.order
    ensures Insert(x, s) == s + [x]
    decreases |s|
  {
    if |s| > 0 {
      InsertAtEnd(x, s[1..]);
      assert s == [s[0]] + s[1..];
    }
  }

  /** Sorting a sorted list changes nothing. */
  lemma {:induction false} SortSortedIsIdentity(s: seq<Module>)
    requires Sorted(s)
    ensures SortByOrder(s) == s
    decreases |s|
  {
    if |s| > 0 {
      var init := s[..|s| - 1];
      SortSortedIsIdentity(init);
      InsertAtEnd(s[|s| - 1], init);
      assert init + [s[|s| - 1]] == s;
    }
  }

  // ---------------------------------------------------------------------------
  // The shared list

  datatype Registry = Registry(modules: seq<Module>)

  /** The four built-in modules (lines 15-44), in declaration order. */
  const BuiltIn := Registry([
    Module("dashboard", "Dashboard", "dashboard", 1),
    Module("stats", "Stats", "bar_chart", 2),
    Module("history", "History", "calendar_month", 3),
    Module("settings", "Settings", "settings", 99)])

  datatype Listing = Listing(result: seq<Module>, registry: Registry)

  /** `getModules` (lines 46-48): sorts the shared list in place, stably,
      and returns it. */
  function GetModules(reg: Registry): (l: Listing)
    ensures Sorted(l.result) && multiset(l.result) == multiset(reg.modules)
    ensures forall k :: WithOrder(l.result, k) == WithOrder(reg.modules, k)
    ensures l.registry.modules == l.result
  {
    var sorted := SortByOrder(reg.modules);
    SortPermutes(reg.modules);
    forall k
      ensures WithOrder(sorted, k) == WithOrder(reg.modules, k)
    {
      SortIsStable(reg.modules, k);
    }
    Listing(sorted, Registry(sorted))
  }

  /** `registerModule` (lines 50-52). */
  function RegisterModule(reg: Registry, m: Module): (r: Registry)
    ensures |r.modules| == |reg.modules| + 1
    ensures r.modules[..|reg.modules|] == reg.modules && r.modules[|reg.modules|] == m
  {
    Registry(reg.modules + [m])
  }

  /** Calling `getModules` twice gives the same list both times. */
  lemma GetModulesTwice(reg: Registry)
    ensures var first := GetModules(reg);
      GetModules(first.registry) == first
  {
    SortSortedIsIdentity(GetModules(reg).result);
  }

  /** Before anything is registered the modules come in the order dashboard,
      stats, history, settings. */
  lemma BuiltInOrder()
    ensures GetModules(BuiltIn).result == BuiltIn.modules
    ensures |GetModules(BuiltIn).result| == 4
    ensures GetModules(BuiltIn).result[0].id == "dashboard" && GetModules(BuiltIn).result[3].id == "settings"
  {
    var s := BuiltIn.modules;
    assert s[0].order == 1 && s[1].order == 2 && s[2].order == 3 && s[3].order == 99;
    assert Sorted(s);
    SortSortedIsIdentity(s);
  }

  /** A module registered with order 99 or more, the order of the built-in
      settings module, is listed last, after settings even on equal order. */
  lemma RegisteredGoesAfterEqualOrder(m: Module)
    requires m.order >= 99
    ensures GetModules(RegisterModule(BuiltIn, m)).result == BuiltIn.modules + [m]
  {
    var s := BuiltIn.modules + [m];
    assert Sorted(s);
    SortSortedIsIdentity(s);
  }
}

=== FILE: session.dfy ===
/** The check-in session store of `src/lib/stores/session.svelte.ts`: the
    status machine with its breaks and tasks, the messages it announces, the
    session row saved on check-out, the CSV export and the id handling of
    deletes. The clock is an integer number of milliseconds plus the two
    locale strings the messages use; the database is the list of saved
    sessions and a flag saying whether it can be written. */
module Session {
  import opened Wrappers
  import opened Text
  import Settings
  import SidecarClient

  datatype Status = CheckedOut | CheckedIn | OnBreak

  datatype Break = Break(start: int, end: Option<int>)

  datatype Task = Task(id: string, description: string, completed: bool)

  /** The stand-up fields kept as `reportData`. */
  datatype Report = Report(yesterday: string, today: string, blockers: string)

  const BlankReport := Report("", "", "")

  /** What `saveSession` inserts, before date formatting. */
  datatype SavedSession = SavedSession(start: int, end: int, durationMinutes: int, report: Report)

  datatype Store = Store(
    status: Status,
    startTime: Option<int>,
    breaks: seq<Break>,
    tasks: seq<Task>,
    report: Report,
    /** The `sessions` table, oldest first. */
    saved: seq<SavedSession>)

  /** The field initialisers (lines 19-29) over a given table. */
  function Initial(saved: seq<SavedSession>): Store {
    Store(CheckedOut, None, [], [], BlankReport, saved)
  }

  /** `new Date()` and the two locale strings derived from it. */
  datatype Clock = Clock(now: int, time: string, date: string)

  /** A transition's new state and the message it hands to `sendUpdate`. */
  datatype Step = Step(store: Store, message: Option<string>)

  /** `isConnected` (line 32). */
  predicate IsConnected(st: Store) {
    st.status != CheckedOut
  }

  // ---------------------------------------------------------------------------
  // Messages

  const TimeTag := "{time}"
  const DateTag := "{date}"
  const NameTag := "{name}"
  const OverrideMark := "***"

  /** A note that replaces the whole message: its trimmed form starts with `***`. */
  predicate IsOverride(note: Option<string>) {
    Truthy(note) && StartsWith(Trim(note.value), OverrideMark)
  }

  /** A note that is appended: present and not blank. */
  predicate HasNoteText(note: Option<string>) {
    Truthy(note) && Trim(note.value) != ""
  }

  /** `formatMessage` (lines 260-283). */
  function FormatMessage(template: string, note: Option<string>, clock: Clock, userName: Option<string>): (msg: string)
    ensures IsOverride(note) ==> msg == Trim(note.value) && StartsWith(msg, OverrideMark)
    ensures !IsOverride(note) && HasNoteText(note) ==> EndsWith(msg, "\n" + Trim(note.value))
  {
    if IsOverride(note) then Trim(note.value)
    else
      var safeTemplate := Or(Some(template), TimeTag);
      var body := ReplaceFirst(ReplaceFirst(ReplaceFirst(safeTemplate, TimeTag, clock.time),
                                            DateTag, clock.date),
                               NameTag, Or(userName, "Me"));
      if HasNoteText(note) then
        var line := "\n" + Trim(note.value);
        SuffixOfConcat(body, line);
        body + line
      else body
  }

  /** An override note ignores the template, the clock and the name. */
  lemma OverrideIgnoresTemplate(t1: string, t2: string, note: Option<string>, c1: Clock, c2: Clock,
                                n1: Option<string>, n2: Option<string>)
    requires IsOverride(note)
    ensures FormatMessage(t1, note, c1, n1) == FormatMessage(t2, note, c2, n2)
  {
  }

  /** A note that is not an override is appended, trimmed, on a line of its
      own when it has text, and dropped when blank. */
  lemma NoteAppended(template: string, note: Option<string>, clock: Clock, userName: Option<string>)
    requires !IsOverride(note)
    ensures HasNoteText(note) ==>
      FormatMessage(template, note, clock, userName)
        == FormatMessage(template, None, clock, userName) + "\n" + Trim(note.value)
    ensures !HasNoteText(note) ==>
      FormatMessage(template, note, clock, userName) == FormatMessage(template, None, clock, userName)
  {
  }

  /** An unset or empty user name reads as `Me`. */
  lemma MissingNameIsMe(template: string, note: Option<string>, clock: Clock)
    ensures FormatMessage(template, note, clock, None) == FormatMessage(template, note, clock, Some("Me"))
    ensures FormatMessage(template, note, clock, Some("")) == FormatMessage(template, note, clock, Some("Me"))
  {
  }

  /** Only the first `{time}` is replaced: with brace-free text before it
      and a brace-free time, a second `{time}` later on survives, while the
      rest holds no `{date}` or `{name}`. */
  lemma OnlyFirstTimeReplaced(l: string, rest: string, clock: Clock, userName: Option<string>)
    requires '{' !in l && '{' !in clock.time
    requires !Contains(rest, DateTag) && !Contains(rest, NameTag)
    ensures FormatMessage(l + TimeTag + rest, None, clock, userName) == l + clock.time + rest
  {
    var s := l + TimeTag + rest;
    assert s[|l|..|l| + |TimeTag|] == TimeTag;
    forall j: nat | j < |l|
      ensures !OccursAt(s, TimeTag, j)
    {
      assert s[j] == l[j];
      assert l[j] in l;
      if j + |TimeTag| <= |s| {
        assert s[j..j + |TimeTag|][0] == s[j];
      }
    }
    FirstOccurrence(s, TimeTag, |l|);
    assert s[..|l|] == l;
    assert s[|l| + |TimeTag|..] == rest;
    var t := l + clock.time + rest;
    assert ReplaceFirst(s, TimeTag, clock.time) == t;
    assert t == (l + clock.time) + rest;
    assert forall k :: 0 <= k < |l + clock.time| ==> (l + clock.time)[k] in l || (l + clock.time)[k] in clock.time;
    assert '{' !in l + clock.time;
    NoOccurrenceAcross(l + clock.time, rest, DateTag);
    NoOccurrenceAcross(l + clock.time, rest, NameTag);
  }

  /** The first `{time}`, the first `{date}` after it and the first `{name}`
      after that are filled with the time, the date and the user name (`Me`
      when unset), in that order; the text between them and everything after
      the `{name}`, later tags included, is kept. The time and date must be
      brace-free so that they cannot supply a tag themselves. */
  lemma FillsFirstOfEachTag(l: string, m: string, n: string, rest: string, clock: Clock, userName: Option<string>)
    requires '{' !in l && '{' !in m && '{' !in n
    requires '{' !in clock.time && '{' !in clock.date
    ensures FormatMessage(l + TimeTag + m + DateTag + n + NameTag + rest, None, clock, userName)
         == l + clock.time + m + clock.date + n + Or(userName, "Me") + rest
  {
    var t := l + TimeTag + m + DateTag + n + NameTag + rest;
    assert |t| > 0;
    WithoutNoteIsFilledTemplate(t, clock, userName);
    ReplaceThreeTags(l, m, n, rest, clock.time, clock.date, Or(userName, "Me"));
  }

  /** Without a note, a non-empty template is the message body. */
  lemma WithoutNoteIsFilledTemplate(t: string, clock: Clock, userName: Option<string>)
    requires t != ""
    ensures FormatMessage(t, None, clock, userName)
         == ReplaceFirst(ReplaceFirst(ReplaceFirst(t, TimeTag, clock.time), DateTag, clock.date),
                         NameTag, Or(userName, "Me"))
  {
    assert Or(Some(t), TimeTag) == t;
  }

  /** The three single replacements on a template whose tags are separated
      by brace-free text. */
  lemma ReplaceThreeTags(l: string, m: string, n: string, rest: string, time: string, date: string, name: string)
    requires '{' !in l && '{' !in m && '{' !in n && '{' !in time && '{' !in date
    ensures ReplaceFirst(ReplaceFirst(ReplaceFirst(l + TimeTag + m + DateTag + n + NameTag + rest,
                                                   TimeTag, time), DateTag, date), NameTag, name)
         == l + time + m + date + n + name + rest
  {
    TimeStep(l, m, n, rest, time);
    BraceFreeConcat(l, time, m);
    DateStep(l + time + m, n, rest, date);
    BraceFreeConcat(l + time + m, date, n);
    ReplaceFirstAfterFreePrefix(l + time + m + date + n, NameTag, name, rest);
  }

  lemma TimeStep(l: string, m: string, n: string, rest: string, time: string)
    requires '{' !in l
    ensures ReplaceFirst(l + TimeTag + m + DateTag + n + NameTag + rest, TimeTag, time)
         == (l + time + m) + DateTag + (n + NameTag + rest)
  {
    var r1 := m + DateTag + n + NameTag + rest;
    assert l + TimeTag + m + DateTag + n + NameTag + rest == l + TimeTag + r1;
    ReplaceFirstAfterFreePrefix(l, TimeTag, time, r1);
    assert l + time + r1 == (l + time + m) + DateTag + (n + NameTag + rest);
  }

  lemma DateStep(l2: string, n: string, rest: string, date: string)
    requires '{' !in l2
    ensures ReplaceFirst(l2 + DateTag + (n + NameTag + rest), DateTag, date) == (l2 + date + n) + NameTag + rest
  {
    ReplaceFirstAfterFreePrefix(l2, DateTag, date, n + NameTag + rest);
    assert l2 + date + (n + NameTag + rest) == (l2 + date + n) + NameTag + rest;
  }

  lemma BraceFreeConcat(a: string, b: string, c: string)
    requires '{' !in a && '{' !in b && '{' !in c
    ensures '{' !in a + b + c
  {
    assert forall k :: 0 <= k < |a + b + c| ==> (a + b + c)[k] in a || (a + b + c)[k] in b || (a + b + c)[k] in c;
  }

  /** An empty template stands for `{time}`. */
  lemma EmptyTemplateIsTime(clock: Clock, userName: Option<string>)
    requires '{' !in clock.time
    ensures FormatMessage("", None, clock, userName) == clock.time
  {
    assert "" + TimeTag + "" == TimeTag;
    SameFallbackSameMessage("", TimeTag, clock, userName);
    OnlyFirstTimeReplaced("", "", clock, userName);
    assert "" + clock.time + "" == clock.time;
  }

  /** Without a note, two templates that fall back to the same text format alike. */
  lemma SameFallbackSameMessage(t1: string, t2: string, clock: Clock, userName: Option<string>)
    requires Or(Some(t1), TimeTag) == Or(Some(t2), TimeTag)
    ensures FormatMessage(t1, None, clock, userName) == FormatMessage(t2, None, clock, userName)
  {
  }

  // ---------------------------------------------------------------------------
  // Transitions

  /** `saveSession`'s `Math.round(ms / 60000)`: the nearest whole minute,
      halves rounded up. */
  function DurationMinutes(ms: int): (m: int)
    ensures m * 60000 - 30000 <= ms < m * 60000 + 30000
  {
    (ms + 30000) / 60000
  }

  /** `checkIn` (lines 69-77): from any status. */
  function CheckIn(st: Store, note: Option<string>, report: Option<Report>, clock: Clock,
                   settings: Settings.AppSettings): (r: Step)
    ensures r.store.status == CheckedIn && r.store.startTime == Some(clock.now)
    ensures r.store.report == (if report.Some? then report.value else st.report)
    ensures r.store.breaks == st.breaks && r.store.tasks == st.tasks && r.store.saved == st.saved
    ensures r.message == Some(FormatMessage(settings.checkInTemplate, note, clock, settings.userName))
    ensures Consistent(st) ==> Consistent(r.store)
  {
    var report' := if report.Some? then report.value else st.report;
    Step(st.(status := CheckedIn, startTime := Some(clock.now), report := report'),
         Some(FormatMessage(settings.checkInTemplate, note, clock, settings.userName)))
  }

  /** `saveSession` (lines 79-103): one row with the rounded duration and the
      report, when the database can be written. */
  function SaveSession(st: Store, start: int, now: int, dbWritable: bool): (saved: seq<SavedSession>)
    ensures !dbWritable ==> saved == st.saved
    ensures dbWritable ==> |saved| == |st.saved| + 1 && saved[..|st.saved|] == st.saved
    ensures dbWritable ==>
      saved[|st.saved|].start == start && saved[|st.saved|].end == now && saved[|st.saved|].report == st.report
    ensures dbWritable ==>
      var m := saved[|st.saved|].durationMinutes;
      m * 60000 - 30000 <= now - start < m * 60000 + 30000
  {
    if dbWritable then st.saved + [SavedSession(start, now, DurationMinutes(now - start), st.report)]
    else st.saved
  }

  /** `checkOut` (lines 206-223): save the session if one was started, then
      reset everything. */
  function CheckOut(st: Store, note: Option<string>, clock: Clock, settings: Settings.AppSettings,
                    dbWritable: bool): (r: Step)
    ensures r.store == Initial(r.store.saved)
    ensures st.startTime.None? || !dbWritable ==> r.store.saved == st.saved
    ensures st.startTime.Some? && dbWritable ==>
      r.store.saved == st.saved + [SavedSession(st.startTime.value, clock.now,
                                                DurationMinutes(clock.now - st.startTime.value), st.report)]
    ensures r.message == Some(FormatMessage(settings.checkOutTemplate, note, clock, settings.userName))
    ensures Consistent(r.store)
  {
    var saved := if st.startTime.Some? then SaveSession(st, st.startTime.value, clock.now, dbWritable) else st.saved;
    Step(Initial(saved), Some(FormatMessage(settings.checkOutTemplate, note, clock, settings.userName)))
  }

  /** `startBreak` (lines 225-234). */
  function StartBreak(st: Store, note: Option<string>, clock: Clock, settings: Settings.AppSettings): (r: Step)
    ensures st.status != CheckedIn ==> r == Step(st, None)
    ensures st.status == CheckedIn ==>
      && r.store == st.(status := OnBreak, breaks := st.breaks + [Break(clock.now, None)])
      && r.message == Some(FormatMessage(settings.breakStartTemplate, note, clock, settings.userName))
    ensures Consistent(st) ==> Consistent(r.store)
  {
    if st.status == CheckedIn then
      Step(st.(status := OnBreak, breaks := st.breaks + [Break(clock.now, None)]),
           Some(FormatMessage(settings.breakStartTemplate, note, clock, settings.userName)))
    else Step(st, None)
  }

  /** `endBreak` (lines 236-246): the last break, if any, gets the end time. */
  function EndBreak(st: Store, note: Option<string>, clock: Clock, settings: Settings.AppSettings): (r: Step)
    ensures st.status != OnBreak ==> r == Step(st, None)
    ensures st.status == OnBreak ==>
      && r.store.status == CheckedIn
      && |r.store.breaks| == |st.breaks|
      && (|st.breaks| > 0 ==>
            && r.store.breaks[..|st.breaks| - 1] == st.breaks[..|st.breaks| - 1]
            && r.store.breaks[|st.breaks| - 1] == st.breaks[|st.breaks| - 1].(end := Some(clock.now)))
      && r.store == st.(status := CheckedIn, breaks := r.store.breaks)
      && r.message == Some(FormatMessage(settings.breakEndTemplate, note, clock, settings.userName))
    ensures Consistent(st) ==> Consistent(r.store)
  {
    if st.status == OnBreak then
      var n := |st.breaks|;
      var breaks := if n > 0 then st.breaks[n - 1 := st.breaks[n - 1].(end := Some(clock.now))] else st.breaks;
      Step(st.(status := CheckedIn, breaks := breaks),
           Some(FormatMessage(settings.breakEndTemplate, note, clock, settings.userName)))
    else Step(st, None)
  }

  /** `addTask` (lines 248-254); the random id is a parameter. */
  function AddTask(st: Store, id: string, description: string): (r: Store)
    ensures |r.tasks| == |st.tasks| + 1 && r.tasks[..|st.tasks|] == st.tasks
    ensures r.tasks[|st.tasks|] == Task(id, description, false)
    ensures r == st.(tasks := r.tasks)
    ensures Consistent(st) ==> Consistent(r)
  {
    st.(tasks := st.tasks + [Task(id, description, false)])
  }

  /** `sendUpdate` (lines 256-258): the message goes to the worker client. */
  function Announce(c: SidecarClient.Client, settings: Settings.AppSettings, step: Step): (r: SidecarClient.Client)
    ensures step.message.None? ==> r == c
    ensures step.message.Some? ==> r == SidecarClient.SendToWhatsApp(c, settings, step.message.value)
  {
    match step.message
    case None => c
    case Some(m) => SidecarClient.SendToWhatsApp(c, settings, m)
  }

  // ---------------------------------------------------------------------------
  // Properties of the machine

  /** The state the transitions keep: a started session exactly when not
      checked out, no breaks when checked out, and an open last break while
      on a break. */
  predicate Consistent(st: Store) {
    && (st.status == CheckedOut <==> st.startTime.None?)
    && (st.status == CheckedOut ==> st.breaks == [])
    && (st.status == OnBreak ==> |st.breaks| > 0 && st.breaks[|st.breaks| - 1].end.None?)
  }

  lemma InitialIsConsistent(saved: seq<SavedSession>)
    ensures Consistent(Initial(saved)) && !IsConnected(Initial(saved))
  {
  }

  /** In a consistent store, being connected is having a start time. */
  lemma ConnectedIffStarted(st: Store)
    requires Consistent(st)
    ensures IsConnected(st) <==> st.startTime.Some?
  {
  }

  /** Ending a break closes the break that is open; it does not overwrite an
      end time. */
  lemma EndBreakClosesOpenBreak(st: Store, note: Option<string>, clock: Clock, settings: Settings.AppSettings)
    requires Consistent(st) && st.status == OnBreak
    ensures var b := EndBreak(st, note, clock, settings).store.breaks;
      && st.breaks[|st.breaks| - 1].end.None?
      && b[|b| - 1] == Break(st.breaks[|st.breaks| - 1].start, Some(clock.now))
  {
  }

  /** A break taken and ended adds one closed break and returns to work. */
  lemma BreakRoundTrip(st: Store, n1: Option<string>, n2: Option<string>, c1: Clock, c2: Clock,
                       settings: Settings.AppSettings)
    requires st.status == CheckedIn
    ensures var r := EndBreak(StartBreak(st, n1, c1, settings).store, n2, c2, settings).store;
      r == st.(breaks := st.breaks + [Break(c1.now, Some(c2.now))])
  {
    var s1 := StartBreak(st, n1, c1, settings).store;
    assert s1.breaks[..|s1.breaks| - 1] == st.breaks;
  }

  /** Checking in during a break leaves that break open for good: the status
      is no longer `break`, so `endBreak` will not close it. */
  lemma CheckInDuringBreakLeavesItOpen(st: Store, note: Option<string>, report: Option<Report>, clock: Clock,
                                       settings: Settings.AppSettings, n2: Option<string>, c2: Clock)
    requires Consistent(st) && st.status == OnBreak
    ensures var r := CheckIn(st, note, report, clock, settings).store;
      && r.breaks[|r.breaks| - 1].end.None?
      && EndBreak(r, n2, c2, settings) == Step(r, None)
  {
  }

  /** A checked-out store is reset whatever it was, and the session is saved
      exactly when one had been started and the database is writable. */
  lemma CheckOutSavesOnlyStarted(st: Store, note: Option<string>, clock: Clock, settings: Settings.AppSettings,
                                 dbWritable: bool)
    ensures var r := CheckOut(st, note, clock, settings, dbWritable).store;
      |r.saved| == |st.saved| + (if st.startTime.Some? && dbWritable then 1 else 0)
  {
  }

  // ---------------------------------------------------------------------------
  // CSV export

  const Header := "Date,Start,End,Duration(min),Yesterday,Today,Blockers\n"

  /** `.replace(/"/g, '""')`. */
  function EscapeQuotes(s: string): string {
    ReplaceAll(s, "\"", "\"\"")
  }

  /** A report field as written to the file: quoted, with inner quotes
      doubled (section 2, rule 7 of RFC 4180). */
  function Quote(s: string): string {
    "\"" + EscapeQuotes(s) + "\""
  }

  /** Doubling each quote character, one character at a time. */
  function DoubleQuotes(s: string): (r: string)
    ensures |r| >= |s|
    decreases |s|
  {
    if |s| == 0 then "" else (if s[0] == '"' then "\"\"" else [s[0]]) + DoubleQuotes(s[1..])
  }

  /** Global replacement of a one-character pattern is the per-character rewrite. */
  lemma {:induction false} EscapeIsDoubling(s: string)
    ensures EscapeQuotes(s) == DoubleQuotes(s)
    decreases |s|
  {
    if |s| > 0 {
      EscapeIsDoubling(s[1..]);
      assert s[..1] == [s[0]];
    }
  }

  /** Reads the inside of a quoted field, after its opening quote: `""` is a
      quote, a lone `"` closes the field. Gives the text and what follows. */
  function ReadQuoted(t: string): (r: Option<(string, string)>)
    ensures r.Some? ==> |r.value.1| < |t|
    decreases |t|
  {
    if |t| == 0 then None
    else if t[0] == '"' then
      if |t| >= 2 && t[1] == '"' then
        match ReadQuoted(t[2..])
        case None => None
        case Some(p) => Some(("\"" + p.0, p.1))
      else Some(("", t[1..]))
    else
      match ReadQuoted(t[1..])
      case None => None
      case Some(p) => Some(([t[0]] + p.0, p.1))
  }

  /** Reads one quoted field from the front of `t`. */
  function ParseQuotedField(t: string): (r: Option<(string, string)>)
    ensures r.Some? ==> |t| > 0 && t[0] == '"'
  {
    if |t| > 0 && t[0] == '"' then ReadQuoted(t[1..]) else None
  }

  lemma {:induction false} ReadDoubled(s: string, rest: string)
    requires rest == [] || rest[0] != '"'
    ensures ReadQuoted(DoubleQuotes(s) + "\"" + rest) == Some((s, rest))
    decreases |s|
  {
    var t := DoubleQuotes(s) + "\"" + rest;
    if |s| == 0 {
      assert t == "\"" + rest;
      assert t[1..] == rest;
    } else {
      ReadDoubled(s[1..], rest);
      var tail := DoubleQuotes(s[1..]) + "\"" + rest;
      if s[0] == '"' {
        assert t == "\"\"" + tail;
        assert t[2..] == tail;
        assert "\"" + s[1..] == s;
      } else {
        assert t == [s[0]] + tail;
        assert t[1..] == tail;
        assert [s[0]] + s[1..] == s;
      }
    }
  }

  /** A quoted field reads back as the text it quotes, whatever follows it
      as long as that does not begin with a quote (a comma or a line end,
      in a CSV line). */
  lemma QuoteRoundTrip(s: string, rest: string)
    requires rest == [] || rest[0] != '"'
    ensures ParseQuotedField(Quote(s) + rest) == Some((s, rest))
  {
    EscapeIsDoubling(s);
    ReadDoubled(s, rest);
    var t := Quote(s) + rest;
    assert t[1..] == DoubleQuotes(s) + "\"" + rest;
  }

  /** A JSON value as parsed from the `tasks` column (see `Settings.Json`). */
  type Json = Settings.Json

  /** The `tasks` column of a row: falsy, not parseable (or `null`, on which
      reading a field throws), or parsed. A parsed value that is not an
      object reads like an object without the three fields. */
  datatype StoredReport = NoReport | Unreadable | ParsedReport(fields: map<string, Json>)

  /** A row of `getRecentSessions`. */
  datatype Row = Row(date: string, startTime: string, endTime: Option<string>,
                     durationMinutes: Option<int>, tasks: StoredReport)

  /** `` `"${(data[key] || '').replace(/"/g, '""')}"` ``; `None` when the
      value is truthy but not a string, where `.replace` throws. */
  function ReportCell(m: map<string, Json>, key: string): (r: Option<string>)
    ensures key in m && m[key].JStr? ==> r == Some(Quote(m[key].s))
    ensures key !in m || m[key] == Settings.JNull ==> r == Some(Quote(""))
  {
    if key !in m then Some(Quote(""))
    else match m[key]
      case JStr(s) => Some(Quote(s))
      case JNull => Some(Quote(""))
      case JBool(b) => if b then None else Some(Quote(""))
      case JOther => None
  }

  /** The three report cells of a row (lines 159-167): empty unless the
      column parses; the first throwing field leaves itself and the later
      ones empty. */
  function ReportCells(r: StoredReport): (cells: (string, string, string))
    ensures !r.ParsedReport? ==> cells == ("", "", "")
    ensures r.ParsedReport? ==> cells.0 == ReportCell(r.fields, "yesterday").GetOr("")
    ensures r.ParsedReport? ==>
      cells.1 == (if ReportCell(r.fields, "yesterday").Some? then ReportCell(r.fields, "today").GetOr("") else "")
    ensures r.ParsedReport? ==>
      cells.2 == (if ReportCell(r.fields, "yesterday").Some? && ReportCell(r.fields, "today").Some?
                  then ReportCell(r.fields, "blockers").GetOr("") else "")
  {
    match r
    case ParsedReport(m) =>
      (match ReportCell(m, "yesterday")
       case None => ("", "", "")
       case Some(y) =>
         (match ReportCell(m, "today")
          case None => (y, "", "")
          case Some(t) =>
            (match ReportCell(m, "blockers")
             case None => (y, t, "")
             case Some(b) => (y, t, b))))
    case _ => ("", "", "")
  }

  /** String fields come out quoted. */
  lemma StringFieldsAreQuoted(m: map<string, Json>, y: string, t: string, b: string)
    requires "yesterday" in m && m["yesterday"] == Settings.JStr(y)
    requires "today" in m && m["today"] == Settings.JStr(t)
    requires "blockers" in m && m["blockers"] == Settings.JStr(b)
    ensures ReportCells(ParsedReport(m)) == (Quote(y), Quote(t), Quote(b))
  {
  }

  /** A field on which `.replace` throws empties itself and the fields after
      it, but keeps the ones before. */
  lemma ThrowingFieldStopsTheRow(m: map<string, Json>, y: string)
    requires "yesterday" in m && m["yesterday"] == Settings.JStr(y)
    requires "today" in m && m["today"] == Settings.JOther
    ensures ReportCells(ParsedReport(m)) == (Quote(y), "", "")
    ensures ReportCells(ParsedReport(m["yesterday" := Settings.JBool(true)])) == ("", "", "")
  {
  }

  /** The seven cells of an export line (line 169): a missing end time is
      empty and a missing duration is `0`. */
  function RowCells(row: Row): (cells: seq<string>)
    ensures |cells| == 7 && cells[..2] == [row.date, row.startTime]
    ensures cells[2] == (if row.endTime.Some? then row.endTime.value else "")
    ensures cells[3] == IntToText(if row.durationMinutes.Some? then row.durationMinutes.value else 0)
    ensures (cells[4], cells[5], cells[6]) == ReportCells(row.tasks)
  {
    var (y, t, b) := ReportCells(row.tasks);
    [row.date, row.startTime, Or(row.endTime, ""), IntToText(row.durationMinutes.GetOr(0)), y, t, b]
  }

  /** One line of the export (line 169). */
  function RowLine(row: Row): string {
    JoinWith(RowCells(row), ",") + "\n"
  }

  function Lines(rows: seq<Row>): string
    decreases |rows|
  {
    if |rows| == 0 then "" else Lines(rows[..|rows| - 1]) + RowLine(rows[|rows| - 1])
  }

  /** The text `exportToCSV` builds (lines 152-170): nothing for no rows,
      else the header and one line per row, in row order. */
  method BuildCsv(rows: seq<Row>) returns (csv: Option<string>)
    ensures csv.None? <==> |rows| == 0
    ensures csv.Some? ==> StartsWith(csv.value, Header)
    ensures csv.Some? ==> csv.value == Header + Lines(rows)
  {
    if |rows| == 0 {
      return None;
    }
    var lines := "";
    var i := 0;
    while i < |rows|
      invariant 0 <= i <= |rows|
      invariant lines == Lines(rows[..i])
    {
      var line := RowLine(rows[i]);
      LinesStep(rows, i);
      lines := lines + line;
      i := i + 1;
    }
    assert rows[..|rows|] == rows;
    PrefixOfConcat(Header, lines);
    return Some(Header + lines);
  }

  lemma LinesStep(rows: seq<Row>, i: nat)
    requires i < |rows|
    ensures Lines(rows[..i + 1]) == Lines(rows[..i]) + RowLine(rows[i])
  {
    assert rows[..i + 1][..i] == rows[..i];
  }

  // ---------------------------------------------------------------------------
  // Deleting sessions

  predicate NoDuplicates(s: seq<int>) {
    forall i, j :: 0 <= i < j < |s| ==> s[i] != s[j]
  }

  /** The position of the first occurrence of `x` in `s`. */
  function FirstIndex(s: seq<int>, x: int): (k: nat)
    requires x in s
    ensures k < |s| && s[k] == x && x !in s[..k]
  {
    if s[0] == x then 0 else
      assert s == [s[0]] + s[1..];
      1 + FirstIndex(s[1..], x)
  }

  /** `[...new Set(ids)]`: each id once, in order of first appearance. */
  method Dedup(ids: seq<int>) returns (u: seq<int>)
    ensures NoDuplicates(u)
    ensures forall x :: x in u <==> x in ids
    ensures forall i, j :: 0 <= i < j < |u| ==> FirstIndex(ids, u[i]) < FirstIndex(ids, u[j])
  {
    u := [];
    var seen: set<int> := {};
    var n := 0;
    while n < |ids|
      invariant 0 <= n <= |ids|
      invariant NoDuplicates(u)
      invariant forall x :: x in u <==> x in ids[..n]
      invariant forall x :: x in seen <==> x in u
      invariant forall i :: 0 <= i < |u| ==> u[i] in ids
      invariant forall i :: 0 <= i < |u| ==> FirstIndex(ids, u[i]) < n
      invariant forall i, j :: 0 <= i < j < |u| ==> FirstIndex(ids, u[i]) < FirstIndex(ids, u[j])
    {
      var x := ids[n];
      assert ids[..n + 1] == ids[..n] + [x];
      if x !in seen {
        assert x !in ids[..n];
        forall i | 0 <= i < n
          ensures ids[i] != x
        {
          assert ids[..n][i] == ids[i];
        }
        assert FirstIndex(ids, x) == n;
        u := u + [x];
        seen := seen + {x};
      }
      n := n + 1;
    }
    assert ids[..n] == ids;
  }

  /** The statement and parameters `deleteSessions` (lines 138-150) hands to the database. */
  datatype Delete = Delete(statement: string, params: seq<int>)

  function Placeholders(n: nat): (r: string)
    ensures n > 0 ==> |r| == 2 * n - 1
  {
    if n <= 1 then (if n == 0 then "" else "?") else "?," + Placeholders(n - 1)
  }

  method DeleteSessions(ids: seq<int>) returns (d: Option<Delete>)
    ensures |ids| == 0 <==> d.None?
    ensures d.Some? ==> NoDuplicates(d.value.params) && (forall x :: x in d.value.params <==> x in ids)
    ensures d.Some? ==> d.value.statement == "DELETE FROM sessions WHERE id IN (" + Placeholders(|d.value.params|) + ")"
  {
    if |ids| == 0 {
      return None;
    }
    var u := Dedup(ids);
    assert ids[0] in ids;
    return Some(Delete("DELETE FROM sessions WHERE id IN (" + Placeholders(|u|) + ")", u));
  }

  /** There is one `?` per parameter, separated by commas. */
  lemma {:induction false} PlaceholderCount(n: nat)
    requires n > 0
    ensures Split(Placeholders(n), ",") == seq(n, _ => "?")
    decreases n
  {
    var parts := seq(n, _ => "?");
    assert |parts| >= 1;
    JoinPlaceholders(n);
    forall k | 0 <= k < |parts|
      ensures ","[0] !in parts[k]
    {
    }
    JoinThenSplit(parts, ",");
  }

  lemma {:induction false} JoinPlaceholders(n: nat)
    requires n > 0
    ensures JoinWith(seq(n, _ => "?"), ",") == Placeholders(n)
    decreases n
  {
    if n > 1 {
      JoinPlaceholders(n - 1);
      assert seq(n, _ => "?")[1..] == seq(n - 1, _ => "?");
    }
  }
}

=== FILE: settings.dfy ===
/** The persisted user settings of `src/lib/stores/settings.svelte.ts`: nine
    fields, their setters, and `save`/`load` through one browser-storage entry
    holding a JSON object. */
module Settings {
  import opened Wrappers
  import opened Text

  datatype AppSettings = AppSettings(
    whatsappNumber: Option<string>,
    autoStart: bool,
    userName: Option<string>,
    /** `'self'` or `'group'`; any other string is kept as it is. */
    targetType: string,
    targetGroup: Option<string>,
    checkInTemplate: string,
    checkOutTemplate: string,
    breakStartTemplate: string,
    breakEndTemplate: string)

  const SelfTarget := "self"
  const GroupTarget := "group"

  /** The field initialisers (lines 8-18). */
  const Defaults := AppSettings(
    None, true, Some("My Name"), SelfTarget, None,
    "*Check In* {time}", "*Check Out* {time}", "*Taking a Break* {time}", "*Check In* {time}")

  /** A JSON value as `JSON.parse` returns it, for the kinds `save` writes;
      `JOther` stands for numbers, arrays and objects. */
  datatype Json = JNull | JBool(b: bool) | JStr(s: string) | JOther

  /** The storage entry `check-inn-settings`: missing (or the empty string),
      not parseable (or parsed to `null`), or parsed to an object. A parsed
      non-object value reads like an object with no fields. */
  datatype Stored = Missing | Malformed | Parsed(fields: map<string, Json>)

  /** `data[key] ?? null` for a string field. */
  function StringOrNull(m: map<string, Json>, key: string): (r: Option<string>)
    ensures key in m && m[key].JStr? <==> r.Some?
    ensures r.Some? ==> m[key] == JStr(r.value)
  {
    if key in m && m[key].JStr? then Some(m[key].s) else None
  }

  /** `data[key] ?? fallback` for a string field. */
  function StringOr(m: map<string, Json>, key: string, fallback: string): (r: string)
    ensures key in m && m[key].JStr? ==> r == m[key].s
    ensures !(key in m && m[key].JStr?) ==> r == fallback
  {
    if key in m && m[key].JStr? then m[key].s else fallback
  }

  /** `data[key] ?? false`. */
  function BoolOrFalse(m: map<string, Json>, key: string): (r: bool)
    ensures r <==> key in m && m[key] == JBool(true)
  {
    key in m && m[key].JBool? && m[key].b
  }

  /** `if (data[key]) field = data[key]`: only a non-empty string overwrites. */
  function TemplateOr(m: map<string, Json>, key: string, current: string): (r: string)
    ensures key in m && m[key].JStr? && m[key].s != "" ==> r == m[key].s
    ensures !(key in m && m[key].JStr? && m[key].s != "") ==> r == current
  {
    if key in m && m[key].JStr? && m[key].s != "" then m[key].s else current
  }

  /** `load` (lines 24-44). A missing or unreadable entry changes nothing;
      otherwise each plain field takes its stored value or its `??` default,
      and each template is overwritten only by a non-empty stored string. */
  function Load(stored: Stored, current: AppSettings): (r: AppSettings)
    ensures !stored.Parsed? ==> r == current
    ensures stored.Parsed? ==>
      && r.whatsappNumber == StringOrNull(stored.fields, "whatsappNumber")
      && r.autoStart == BoolOrFalse(stored.fields, "autoStart")
      && r.userName == StringOrNull(stored.fields, "userName")
      && r.targetType == StringOr(stored.fields, "targetType", SelfTarget)
      && r.targetGroup == StringOrNull(stored.fields, "targetGroup")
    ensures stored.Parsed? ==>
      && r.checkInTemplate == TemplateOr(stored.fields, "checkInTemplate", current.checkInTemplate)
      && r.checkOutTemplate == TemplateOr(stored.fields, "checkOutTemplate", current.checkOutTemplate)
      && r.breakStartTemplate == TemplateOr(stored.fields, "breakStartTemplate", current.breakStartTemplate)
      && r.breakEndTemplate == TemplateOr(stored.fields, "breakEndTemplate", current.breakEndTemplate)
  {
    match stored
    case Parsed(m) =>
      AppSettings(
        StringOrNull(m, "whatsappNumber"),
        BoolOrFalse(m, "autoStart"),
        StringOrNull(m, "userName"),
        StringOr(m, "targetType", SelfTarget),
        StringOrNull(m, "targetGroup"),
        TemplateOr(m, "checkInTemplate", current.checkInTemplate),
        TemplateOr(m, "checkOutTemplate", current.checkOutTemplate),
        TemplateOr(m, "breakStartTemplate", current.breakStartTemplate),
        TemplateOr(m, "breakEndTemplate", current.breakEndTemplate))
    case _ => current
  }

  function Nullable(o: Option<string>): Json {
    match o
    case Some(v) => JStr(v)
    case None => JNull
  }

  /** The nine keys `save` writes. */
  const SavedKeys: set<string> := {"whatsappNumber", "autoStart", "userName", "targetType", "targetGroup",
                                   "checkInTemplate", "checkOutTemplate", "breakStartTemplate", "breakEndTemplate"}

  /** `save` (lines 46-58): all nine fields under their own names. */
  function Save(s: AppSettings): (stored: Stored)
    ensures stored.Parsed? && stored.fields.Keys == SavedKeys
  {
    Parsed(map[
      "whatsappNumber" := Nullable(s.whatsappNumber),
      "autoStart" := JBool(s.autoStart),
      "userName" := Nullable(s.userName),
      "targetType" := JStr(s.targetType),
      "targetGroup" := Nullable(s.targetGroup),
      "checkInTemplate" := JStr(s.checkInTemplate),
      "checkOutTemplate" := JStr(s.checkOutTemplate),
      "breakStartTemplate" := JStr(s.breakStartTemplate),
      "breakEndTemplate" := JStr(s.breakEndTemplate)])
  }

  /** A template loaded from storage: the stored one when non-empty, the one
      in memory otherwise. */
  function Kept(saved: string, current: string): string {
    if saved != "" then saved else current
  }

  /** Saving and loading back restores every plain field exactly, and every
      template that was non-empty. */
  lemma SaveThenLoad(s: AppSettings, current: AppSettings)
    ensures Load(Save(s), current) == s.(
      checkInTemplate := Kept(s.checkInTemplate, current.checkInTemplate),
      checkOutTemplate := Kept(s.checkOutTemplate, current.checkOutTemplate),
      breakStartTemplate := Kept(s.breakStartTemplate, current.breakStartTemplate),
      breakEndTemplate := Kept(s.breakEndTemplate, current.breakEndTemplate))
  {
  }

  predicate TemplatesSet(s: AppSettings) {
    s.checkInTemplate != "" && s.checkOutTemplate != "" && s.breakStartTemplate != "" && s.breakEndTemplate != ""
  }

  /** With all templates non-empty the round trip is exact, whatever is in memory. */
  lemma SaveThenLoadExact(s: AppSettings, current: AppSettings)
    requires TemplatesSet(s)
    ensures Load(Save(s), current) == s
  {
    SaveThenLoad(s, current);
  }

  /** An entry with none of the fields clears the nullable fields, turns
      auto-start off (unlike the initial `true`), targets `'self'`, and keeps
      the templates in memory. */
  lemma LoadOfEmptyObject(current: AppSettings)
    ensures Load(Parsed(map[]), current)
         == AppSettings(None, false, None, SelfTarget, None,
                        current.checkInTemplate, current.checkOutTemplate,
                        current.breakStartTemplate, current.breakEndTemplate)
    ensures Defaults.autoStart && !Load(Parsed(map[]), Defaults).autoStart
  {
  }

  // ---------------------------------------------------------------------------
  // The store: settings in memory plus the storage entry

  datatype Store = Store(settings: AppSettings, saved: Stored)

  /** The constructor: defaults, then `load`. */
  function NewStore(stored: Stored): (st: Store)
    ensures st.settings == Load(stored, Defaults) && st.saved == stored
    ensures stored.Parsed? ==> st.settings.autoStart == BoolOrFalse(stored.fields, "autoStart")
    ensures !stored.Parsed? ==> st.settings == Defaults
  {
    Store(Load(stored, Defaults), stored)
  }

  /** A change to the settings followed by `save`: the entry written is
      the one for the settings in memory, and a store constructed from it
      later starts with those settings when every template is set. */
  function Commit(s: AppSettings): (st: Store)
    ensures st.settings == s && st.saved == Save(s)
    ensures TemplatesSet(s) ==> NewStore(st.saved).settings == s
  {
    if TemplatesSet(s) then SaveThenLoadExact(s, Defaults); Store(s, Save(s))
    else Store(s, Save(s))
  }

  /** `setWhatsappNumber` (lines 60-63). */
  function SetWhatsappNumber(st: Store, number: string): (r: Store)
    ensures r.settings == st.settings.(whatsappNumber := Some(number))
    ensures r.saved == Save(r.settings)
  {
    Commit(st.settings.(whatsappNumber := Some(number)))
  }

  /** `removeWhatsappNumber` (lines 65-68). */
  function RemoveWhatsappNumber(st: Store): (r: Store)
    ensures r.settings == st.settings.(whatsappNumber := None)
    ensures r.saved == Save(r.settings)
  {
    Commit(st.settings.(whatsappNumber := None))
  }

  /** `toggleAutoStart` (lines 70-73). */
  function ToggleAutoStart(st: Store): (r: Store)
    ensures r.settings.autoStart != st.settings.autoStart
    ensures r.settings == st.settings.(autoStart := r.settings.autoStart)
    ensures r.saved == Save(r.settings)
  {
    Commit(st.settings.(autoStart := !st.settings.autoStart))
  }

  /** `setTargetType` (lines 75-78). */
  function SetTargetType(st: Store, targetType: string): (r: Store)
    ensures r.settings == st.settings.(targetType := targetType)
    ensures r.saved == Save(r.settings)
  {
    Commit(st.settings.(targetType := targetType))
  }

  /** `setTargetGroup` (lines 80-83). */
  function SetTargetGroup(st: Store, group: string): (r: Store)
    ensures r.settings == st.settings.(targetGroup := Some(group))
    ensures r.saved == Save(r.settings)
  {
    Commit(st.settings.(targetGroup := Some(group)))
  }

  /** Toggling twice restores the settings in memory and the stored entry. */
  lemma ToggleTwiceRestores(st: Store)
    requires st.saved == Save(st.settings)
    ensures ToggleAutoStart(ToggleAutoStart(st)) == st
  {
  }

  /** After any setter the stored entry reloads to exactly what is in memory,
      so a restart sees the change. */
  lemma SetterPersists(st: Store, number: string, group: string, targetType: string, current: AppSettings)
    requires TemplatesSet(st.settings)
    ensures Load(SetWhatsappNumber(st, number).saved, current) == SetWhatsappNumber(st, number).settings
    ensures Load(RemoveWhatsappNumber(st).saved, current) == RemoveWhatsappNumber(st).settings
    ensures Load(ToggleAutoStart(st).saved, current) == ToggleAutoStart(st).settings
    ensures Load(SetTargetType(st, targetType).saved, current) == SetTargetType(st, targetType).settings
    ensures Load(SetTargetGroup(st, group).saved, current) == SetTargetGroup(st, group).settings
  {
    SaveThenLoadExact(SetWhatsappNumber(st, number).settings, current);
    SaveThenLoadExact(RemoveWhatsappNumber(st).settings, current);
    SaveThenLoadExact(ToggleAutoStart(st).settings, current);
    SaveThenLoadExact(SetTargetType(st, targetType).settings, current);
    SaveThenLoadExact(SetTargetGroup(st, group).settings, current);
  }
}

=== FILE: template.dfy ===
/** Placeholder expansion of `src/lib/utils/template.ts`. The two date
    strings, which the source takes from the clock and the locale, are
    parameters. */
module Template {
  import opened Wrappers
  import opened Text

  const NameTag := "{name}"
  const DateTag := "{date}"
  const DayTag := "{day}"
  const TasksTag := "{tasks}"
  const NoTasks := "No tasks recorded."

  function TaskLines(tasks: seq<string>): (lines: seq<string>)
    ensures |lines| == |tasks|
    ensures forall i :: 0 <= i < |tasks| ==> lines[i] == "- " + tasks[i]
  {
    seq(|tasks|, i requires 0 <= i < |tasks| => "- " + tasks[i])
  }

  /** The task list (lines 11-13): one `- t` line per task joined by line
      feeds, or a fixed sentence when there are none. */
  function RenderTasks(tasks: seq<string>): (r: string)
    ensures |tasks| == 0 ==> r == NoTasks
    ensures |tasks| > 0 ==> r == JoinWith(TaskLines(tasks), "\n")
  {
    if |tasks| > 0 then JoinWith(TaskLines(tasks), "\n") else NoTasks
  }

  /** `processTemplate` (lines 5-20): global replacement of `{name}`,
      `{date}`, `{day}` and `{tasks}`, in that order, each on the output of
      the previous one. A template without placeholders comes out unchanged;
      `ExpandsEveryPlaceholder` below states what happens to one with them. */
  function ProcessTemplate(template: string, name: string, tasks: seq<string>, date: string, day: string): (r: string)
    ensures (!Contains(template, NameTag) && !Contains(template, DateTag)
             && !Contains(template, DayTag) && !Contains(template, TasksTag)) ==> r == template
  {
    KeepsTextWithout(template, NameTag, name);
    KeepsTextWithout(template, DateTag, date);
    KeepsTextWithout(template, DayTag, day);
    KeepsTextWithout(template, TasksTag, RenderTasks(tasks));
    var s1 := ReplaceAll(template, NameTag, name);
    var s2 := ReplaceAll(s1, DateTag, date);
    var s3 := ReplaceAll(s2, DayTag, day);
    ReplaceAll(s3, TasksTag, RenderTasks(tasks))
  }

  /** Global replacement leaves a text without the pattern alone. */
  lemma KeepsTextWithout(s: string, p: string, r: string)
    requires |p| > 0
    ensures !Contains(s, p) ==> ReplaceAll(s, p, r) == s
  {
    if !Contains(s, p) {
      ReplaceAllAbsent(s, p, r);
    }
  }

  // ---------------------------------------------------------------------------
  // The task list read back line by line

  /** A non-empty list of single-line tasks renders to exactly one line per
      task, with no extra line before or after. */
  lemma RenderedTasksReadBack(tasks: seq<string>)
    requires |tasks| > 0
    requires forall i :: 0 <= i < |tasks| ==> '\n' !in tasks[i]
    ensures Split(RenderTasks(tasks), "\n") == TaskLines(tasks)
  {
    var lines := TaskLines(tasks);
    forall k | 0 <= k < |lines|
      ensures "\n"[0] !in lines[k]
    {
      assert lines[k] == "- " + tasks[k];
    }
    JoinThenSplit(lines, "\n");
  }

  // ---------------------------------------------------------------------------
  // Every placeholder is replaced by its value

  datatype Placeholder = Name | Date | Day | Tasks

  function Tag(ph: Placeholder): string {
    match ph
    case Name => NameTag
    case Date => DateTag
    case Day => DayTag
    case Tasks => TasksTag
  }

  /** A template as a sequence of literal text and placeholders. */
  datatype Segment = Lit(text: string) | Slot(ph: Placeholder)

  /** The text a segment stands for in the template. */
  function SegText(seg: Segment): string {
    match seg
    case Lit(t) => t
    case Slot(ph) => Tag(ph)
  }

  function Render(segs: seq<Segment>): string
    decreases |segs|
  {
    if |segs| == 0 then "" else SegText(segs[0]) + Render(segs[1..])
  }

  /** The four values, in the order the source substitutes them. */
  datatype Values = Values(name: string, date: string, day: string, tasks: string)

  function ValueOf(v: Values, ph: Placeholder): string {
    match ph
    case Name => v.name
    case Date => v.date
    case Day => v.day
    case Tasks => v.tasks
  }

  /** The intended expansion: every placeholder replaced by its value. */
  function Fill(segs: seq<Segment>, v: Values): string
    decreases |segs|
  {
    if |segs| == 0 then ""
    else (if segs[0].Lit? then segs[0].text else ValueOf(v, segs[0].ph)) + Fill(segs[1..], v)
  }

  /** Turns every slot for `ph` into the literal `value`. */
  function Substitute(segs: seq<Segment>, ph: Placeholder, value: string): (r: seq<Segment>)
    ensures |r| == |segs|
    ensures forall k :: 0 <= k < |segs| ==> r[k] == (if segs[k] == Slot(ph) then Lit(value) else segs[k])
  {
    seq(|segs|, k requires 0 <= k < |segs| => if segs[k] == Slot(ph) then Lit(value) else segs[k])
  }

  predicate BraceFree(s: string) {
    '{' !in s
  }

  predicate LiteralsBraceFree(segs: seq<Segment>) {
    forall k :: 0 <= k < |segs| && segs[k].Lit? ==> BraceFree(segs[k].text)
  }

  /** Each tag opens with a brace, holds no other one, and the tags differ
      at their second or fourth character. */
  lemma TagShape(q: Placeholder, ph: Placeholder)
    ensures |Tag(q)| >= 5 && Tag(q)[0] == '{'
    ensures forall j :: 0 < j < |Tag(q)| ==> Tag(q)[j] != '{'
    ensures q != ph ==> Tag(q)[1] != Tag(ph)[1] || Tag(q)[3] != Tag(ph)[3]
  {
  }

  /** In the rendering of one segment followed by anything, the tag of `ph`
      can only start inside the segment if the segment is that very slot. */
  lemma NoTagInsideSegment(seg: Segment, x: string, ph: Placeholder)
    requires seg.Lit? ==> BraceFree(seg.text)
    requires seg != Slot(ph)
    ensures forall j: nat :: j < |SegText(seg)| ==> !OccursAt(SegText(seg) + x, Tag(ph), j)
  {
    var l := SegText(seg);
    var p := Tag(ph);
    var s := l + x;
    TagShape(ph, ph);
    forall j: nat | j < |l|
      ensures !OccursAt(s, p, j)
    {
      assert s[j] == l[j];
      if j + |p| <= |s| {
        assert s[j..j + |p|][0] == s[j];
      }
      match seg
      case Lit(t) =>
        assert l[j] in t;
      case Slot(q) =>
        TagShape(q, ph);
        if j == 0 && |p| <= |s| {
          assert s[..|p|][1] == s[1] == l[1];
          assert s[..|p|][3] == s[3] == l[3];
        }
    }
  }

  /** One replacement step turns exactly the slots of its placeholder into the value. */
  lemma {:induction false} StepSubstitutes(segs: seq<Segment>, ph: Placeholder, value: string)
    requires LiteralsBraceFree(segs)
    ensures ReplaceAll(Render(segs), Tag(ph), value) == Render(Substitute(segs, ph, value))
    decreases |segs|
  {
    if |segs| > 0 {
      var rest := segs[1..];
      var x := Render(rest);
      var p := Tag(ph);
      StepSubstitutes(rest, ph, value);
      var sub := Substitute(segs, ph, value);
      assert sub[1..] == Substitute(rest, ph, value);
      assert Render(sub) == SegText(sub[0]) + Render(sub[1..]);
      assert Render(segs) == SegText(segs[0]) + x;
      if segs[0] == Slot(ph) {
        ReplaceAllAtFront(p, x, value);
      } else {
        NoTagInsideSegment(segs[0], x, ph);
        ReplaceAllSkipsPrefix(SegText(segs[0]), x, p, value);
      }
    }
  }

  lemma SubstitutePreservesBraceFree(segs: seq<Segment>, ph: Placeholder, value: string)
    requires LiteralsBraceFree(segs) && BraceFree(value)
    ensures LiteralsBraceFree(Substitute(segs, ph, value))
  {
  }

  /** Once every slot has been substituted with its value, rendering is filling. */
  lemma {:induction false} FullySubstitutedRendersFill(segs: seq<Segment>, v: Values)
    ensures Render(Substitute(Substitute(Substitute(Substitute(segs, Name, v.name), Date, v.date), Day, v.day), Tasks, v.tasks))
         == Fill(segs, v)
    decreases |segs|
  {
    if |segs| > 0 {
      FullySubstitutedRendersFill(segs[1..], v);
      var s4 := Substitute(Substitute(Substitute(Substitute(segs, Name, v.name), Date, v.date), Day, v.day), Tasks, v.tasks);
      assert s4[1..] == Substitute(Substitute(Substitute(Substitute(segs[1..], Name, v.name), Date, v.date), Day, v.day), Tasks, v.tasks);
    }
  }

  /** The main property: with literal text and values free of `{`, every
      placeholder of the template, wherever and however often it occurs,
      is replaced by its own value and nothing else changes. */
  lemma ExpandsEveryPlaceholder(segs: seq<Segment>, name: string, tasks: seq<string>, date: string, day: string)
    requires LiteralsBraceFree(segs)
    requires BraceFree(name) && BraceFree(date) && BraceFree(day)
    requires forall i :: 0 <= i < |tasks| ==> BraceFree(tasks[i])
    ensures ProcessTemplate(Render(segs), name, tasks, date, day)
         == Fill(segs, Values(name, date, day, RenderTasks(tasks)))
  {
    var v := Values(name, date, day, RenderTasks(tasks));
    TasksBraceFree(tasks);
    var s1 := Substitute(segs, Name, name);
    StepSubstitutes(segs, Name, name);
    SubstitutePreservesBraceFree(segs, Name, name);
    var s2 := Substitute(s1, Date, date);
    StepSubstitutes(s1, Date, date);
    SubstitutePreservesBraceFree(s1, Date, date);
    var s3 := Substitute(s2, Day, day);
    StepSubstitutes(s2, Day, day);
    SubstitutePreservesBraceFree(s2, Day, day);
    StepSubstitutes(s3, Tasks, v.tasks);
    FullySubstitutedRendersFill(segs, v);
  }

  lemma TasksBraceFree(tasks: seq<string>)
    requires forall i :: 0 <= i < |tasks| ==> BraceFree(tasks[i])
    ensures BraceFree(RenderTasks(tasks))
  {
    if |tasks| > 0 {
      JoinBraceFree(TaskLines(tasks), "\n");
    }
  }

  lemma {:induction false} JoinBraceFree(parts: seq<string>, sep: string)
    requires BraceFree(sep)
    requires forall k :: 0 <= k < |parts| ==> BraceFree(parts[k])
    ensures BraceFree(JoinWith(parts, sep))
    decreases |parts|
  {
    if |parts| > 1 {
      JoinBraceFree(parts[1..], sep);
    }
  }

  // ---------------------------------------------------------------------------
  // Replacement order

  /** A text free of braces holds no placeholder. */
  lemma BraceFreeHasNoTag(s: string, ph: Placeholder)
    requires BraceFree(s)
    ensures !Contains(s, Tag(ph))
  {
    TagShape(ph, ph);
    forall j: nat | j + |Tag(ph)| <= |s|
      ensures !OccursAt(s, Tag(ph), j)
    {
      assert s[j..j + |Tag(ph)|][0] == s[j];
      assert s[j] in s;
    }
  }

  /** A single tag rendered alone is replaced by the value when it is the
      tag being replaced, and is left alone otherwise. */
  lemma LoneTag(q: Placeholder, ph: Placeholder, value: string)
    ensures ReplaceAll(Tag(q), Tag(ph), value) == (if q == ph then value else Tag(q))
  {
    var segs := [Slot(q)];
    assert Render(segs) == Tag(q) by {
      assert Render(segs[1..]) == "";
    }
    StepSubstitutes(segs, ph, value);
    var sub := Substitute(segs, ph, value);
    assert Render(sub) == SegText(sub[0]) + Render(sub[1..]);
    assert Render(sub[1..]) == "";
  }

  /** A value inserted early is itself expanded by a later step: a name
      written as `{day}` comes out as the day. */
  lemma EarlierValuesAreExpandedLater(tasks: seq<string>, date: string, day: string)
    requires BraceFree(day)
    ensures ProcessTemplate(NameTag, DayTag, tasks, date, day) == day
  {
    LoneTag(Name, Name, DayTag);
    LoneTag(Day, Date, date);
    LoneTag(Day, Day, day);
    BraceFreeHasNoTag(day, Tasks);
    ReplaceAllAbsent(day, TasksTag, RenderTasks(tasks));
  }

  /** The task list is substituted last, so a placeholder typed inside a
      task stays as typed. */
  lemma TasksAreNotExpanded(name: string, task: string, date: string, day: string)
    ensures ProcessTemplate(TasksTag, name, [task], date, day) == "- " + task
  {
    LoneTag(Tasks, Name, name);
    LoneTag(Tasks, Date, date);
    LoneTag(Tasks, Day, day);
    LoneTag(Tasks, Tasks, RenderTasks([task]));
    assert TaskLines([task]) == ["- " + task];
  }
}

=== FILE: text.dfy ===
/** String operations shared by the model: substring search, the two
    flavours of JavaScript `String.prototype.replace`, `trim`, digit
    filtering and decimal rendering of integers. */
module Text {
  import opened Wrappers

  /** `p` occurs in `s` starting at index `i`. */
  predicate OccursAt(s: string, p: string, i: nat) {
    i + |p| <= |s| && s[i..i + |p|] == p
  }

  ghost predicate Contains(s: string, p: string) {
    exists i: nat :: OccursAt(s, p, i)
  }

  predicate EndsWith(s: string, p: string) {
    |p| <= |s| && s[|s| - |p|..] == p
  }

  /** JavaScript truthiness of a nullable string: `null` and `""` are falsy. */
  predicate Truthy(o: Option<string>) {
    o.Some? && o.value != ""
  }

  /** JavaScript `o || d` on a nullable string. */
  function Or(o: Option<string>, d: string): (r: string)
    ensures Truthy(o) ==> r == o.value
    ensures !Truthy(o) ==> r == d
  {
    if Truthy(o) then o.value else d
  }

  // ---------------------------------------------------------------------------
  // Search

  /** The first occurrence of `p` in `s` at or after `k`. */
  function IndexFrom(s: string, p: string, k: nat): (r: Option<nat>)
    ensures r.None? ==> forall j: nat :: k <= j ==> !OccursAt(s, p, j)
    ensures r.Some? ==> k <= r.value && OccursAt(s, p, r.value)
    ensures r.Some? ==> forall j: nat :: k <= j < r.value ==> !OccursAt(s, p, j)
    decreases |s| - k
  {
    if k + |p| > |s| then None
    else if OccursAt(s, p, k) then Some(k)
    else IndexFrom(s, p, k + 1)
  }

  /** JavaScript `s.indexOf(p)`, with -1 as `None`. */
  function IndexOf(s: string, p: string): (r: Option<nat>)
    ensures r.None? <==> !Contains(s, p)
    ensures r.Some? ==> OccursAt(s, p, r.value)
    ensures r.Some? ==> forall j: nat :: j < r.value ==> !OccursAt(s, p, j)
  {
    IndexFrom(s, p, 0)
  }

  /** An occurrence with none before it is what `indexOf` finds. */
  lemma FirstOccurrence(s: string, p: string, i: nat)
    requires OccursAt(s, p, i)
    requires forall j: nat :: j < i ==> !OccursAt(s, p, j)
    ensures IndexOf(s, p) == Some(i)
  {
    assert Contains(s, p);
    var k := IndexOf(s, p).value;
    assert !(i < k);
    assert !(k < i);
  }

  // ---------------------------------------------------------------------------
  // Split, join and replacement

  /** The pieces of `s` between the non-overlapping, left-to-right
      occurrences of the non-empty pattern `p`. */
  function Split(s: string, p: string): (pieces: seq<string>)
    requires |p| > 0
    ensures |pieces| >= 1
    decreases |s|
  {
    match IndexOf(s, p)
    case None => [s]
    case Some(i) => [s[..i]] + Split(s[i + |p|..], p)
  }

  /** JavaScript `parts.join(sep)`. */
  function JoinWith(parts: seq<string>, sep: string): string {
    if |parts| == 0 then ""
    else if |parts| == 1 then parts[0]
    else parts[0] + sep + JoinWith(parts[1..], sep)
  }

  /** JavaScript `s.replace(p, r)` with a string pattern: only the first
      occurrence is replaced (replacement text taken literally). */
  function ReplaceFirst(s: string, p: string, r: string): (t: string)
    ensures !Contains(s, p) ==> t == s
  {
    match IndexOf(s, p)
    case None => s
    case Some(i) => s[..i] + r + s[i + |p|..]
  }

  /** JavaScript `s.replace(/p/g, r)` for a literal, non-empty pattern:
      the text is scanned left to right, and wherever the pattern starts it
      is replaced (replacement text taken literally) and the scan resumes
      after it, so occurrences never overlap. */
  function ReplaceAll(s: string, p: string, r: string): (t: string)
    requires |p| > 0
    decreases |s|
  {
    if |s| < |p| then s
    else if s[..|p|] == p then r + ReplaceAll(s[|p|..], p, r)
    else [s[0]] + ReplaceAll(s[1..], p, r)
  }

  /** An occurrence behind a prefix is an occurrence in the rest. */
  lemma ShiftOccurs(l: string, x: string, p: string, j: nat)
    ensures OccursAt(l + x, p, |l| + j) <==> OccursAt(x, p, j)
  {
    if |l| + j + |p| <= |l + x| {
      assert (l + x)[|l| + j..|l| + j + |p|] == x[j..j + |p|];
    }
  }

  /** A text without the pattern is left as it is. */
  lemma {:induction false} ReplaceAllAbsent(s: string, p: string, r: string)
    requires |p| > 0 && !Contains(s, p)
    ensures ReplaceAll(s, p, r) == s
    decreases |s|
  {
    if |s| >= |p| {
      assert !OccursAt(s, p, 0);
      var x := s[1..];
      assert s == [s[0]] + x;
      forall j: nat
        ensures !OccursAt(x, p, j)
      {
        ShiftOccurs([s[0]], x, p, j);
      }
      ReplaceAllAbsent(x, p, r);
    }
  }

  /** Replacing every occurrence skips a leading part where none starts. */
  lemma {:induction false} ReplaceAllSkipsPrefix(l: string, x: string, p: string, r: string)
    requires |p| > 0
    requires forall j: nat :: j < |l| ==> !OccursAt(l + x, p, j)
    ensures ReplaceAll(l + x, p, r) == l + ReplaceAll(x, p, r)
    decreases |l|
  {
    if |l| > 0 {
      var s := l + x;
      var l' := l[1..];
      assert !OccursAt(s, p, 0);
      assert s[1..] == l' + x;
      forall j: nat | j < |l'|
        ensures !OccursAt(l' + x, p, j)
      {
        assert !OccursAt(s, p, j + 1);
        ShiftOccurs([s[0]], l' + x, p, j);
        assert [s[0]] + (l' + x) == s;
      }
      ReplaceAllSkipsPrefix(l', x, p, r);
      if |s| >= |p| {
        assert s[..|p|] != p by {
          assert s[0..|p|] == s[..|p|];
        }
      }
      assert ReplaceAll(s, p, r) == [s[0]] + ReplaceAll(l' + x, p, r);
      assert [s[0]] + l' == l;
      assert [s[0]] + (l' + ReplaceAll(x, p, r)) == ([s[0]] + l') + ReplaceAll(x, p, r);
    } else {
      assert l + x == x;
    }
  }

  /** A text that opens with the pattern has that first copy replaced. */
  lemma ReplaceAllAtFront(p: string, x: string, r: string)
    requires |p| > 0
    ensures ReplaceAll(p + x, p, r) == r + ReplaceAll(x, p, r)
  {
    var s := p + x;
    assert s[..|p|] == p;
    assert s[|p|..] == x;
  }

  /** The scan agrees with the search: the text up to the first occurrence
      is kept, that occurrence is replaced, and the rest is handled alike. */
  lemma ReplaceAllStep(s: string, p: string, r: string, i: nat)
    requires |p| > 0 && IndexOf(s, p) == Some(i)
    ensures ReplaceAll(s, p, r) == s[..i] + r + ReplaceAll(s[i + |p|..], p, r)
  {
    ReplaceAllAtFirst(s, p, r, i);
  }

  lemma ReplaceAllAtFirst(s: string, p: string, r: string, i: nat)
    requires |p| > 0 && OccursAt(s, p, i)
    requires forall j: nat :: j < i ==> !OccursAt(s, p, j)
    ensures ReplaceAll(s, p, r) == s[..i] + r + ReplaceAll(s[i + |p|..], p, r)
  {
    ReplaceAllBeforeFirst(s, p, r, i);
    ReplaceAllAtOccurrence(s, p, r, i);
  }

  /** From an occurrence on, the pattern is replaced and the scan resumes after it. */
  lemma ReplaceAllAtOccurrence(s: string, p: string, r: string, i: nat)
    requires |p| > 0 && OccursAt(s, p, i)
    ensures ReplaceAll(s[i..], p, r) == r + ReplaceAll(s[i + |p|..], p, r)
  {
    var y := s[i + |p|..];
    assert s[i..] == p + y by {
      assert s[i..][..|p|] == p;
      assert s[i..][|p|..] == y;
    }
    ReplaceAllAtFront(p, y, r);
  }

  /** The text before the first occurrence passes through unchanged. */
  lemma ReplaceAllBeforeFirst(s: string, p: string, r: string, i: nat)
    requires |p| > 0 && i <= |s|
    requires forall j: nat :: j < i ==> !OccursAt(s, p, j)
    ensures ReplaceAll(s, p, r) == s[..i] + ReplaceAll(s[i..], p, r)
  {
    var l, x := s[..i], s[i..];
    assert s == l + x;
    ReplaceAllSkipsPrefix(l, x, p, r);
  }

  /** A prefix that ends before the first occurrence holds no occurrence. */
  lemma PrefixBeforeFirstIsFree(s: string, p: string, i: nat)
    requires |p| > 0 && i <= |s|
    requires forall j: nat :: j < i ==> !OccursAt(s, p, j)
    ensures !Contains(s[..i], p)
  {
    if Contains(s[..i], p) {
      var j: nat :| OccursAt(s[..i], p, j);
      assert s[..i][j..j + |p|] == s[j..j + |p|];
      assert OccursAt(s, p, j);
    }
  }

  /** Joining a non-empty list behind a head piece. */
  lemma JoinCons(a: string, tail: seq<string>, sep: string)
    requires |tail| >= 1
    ensures JoinWith([a] + tail, sep) == a + sep + JoinWith(tail, sep)
  {
    assert ([a] + tail)[1..] == tail;
  }

  /** One step of a split: the piece before the first occurrence, then the
      split of the text after it. */
  lemma SplitStep(s: string, p: string, i: nat)
    requires |p| > 0
    requires IndexOf(s, p) == Some(i)
    ensures Split(s, p) == [s[..i]] + Split(s[i + |p|..], p)
    ensures s == s[..i] + p + s[i + |p|..]
  {
    assert s[i..i + |p|] == p;
    assert s == s[..i] + s[i..i + |p|] + s[i + |p|..];
  }

  /** Splitting and joining back with the same pattern restores the text. */
  lemma {:induction false} SplitThenJoin(s: string, p: string)
    requires |p| > 0
    ensures JoinWith(Split(s, p), p) == s
    decreases |s|
  {
    if IndexOf(s, p).Some? {
      var i := IndexOf(s, p).value;
      var rest := s[i + |p|..];
      SplitStep(s, p, i);
      SplitThenJoin(rest, p);
      JoinCons(s[..i], Split(rest, p), p);
    }
  }

  /** No piece of a split holds the pattern it was split on. */
  lemma {:induction false} SplitPiecesAreFree(s: string, p: string)
    requires |p| > 0
    ensures forall k :: 0 <= k < |Split(s, p)| ==> !Contains(Split(s, p)[k], p)
    decreases |s|
  {
    if IndexOf(s, p).Some? {
      var i := IndexOf(s, p).value;
      var rest := s[i + |p|..];
      SplitStep(s, p, i);
      SplitPiecesAreFree(rest, p);
      PrefixBeforeFirstIsFree(s, p, i);
    }
  }

  /** Global replacement is "split on the pattern, join with the replacement". */
  lemma {:induction false} ReplaceAllIsSplitJoin(s: string, p: string, r: string)
    requires |p| > 0
    ensures ReplaceAll(s, p, r) == JoinWith(Split(s, p), r)
    decreases |s|
  {
    if IndexOf(s, p).Some? {
      var i := IndexOf(s, p).value;
      var rest := s[i + |p|..];
      SplitStep(s, p, i);
      ReplaceAllStep(s, p, r, i);
      ReplaceAllIsSplitJoin(rest, p, r);
      JoinCons(s[..i], Split(rest, p), r);
    } else {
      ReplaceAllAbsent(s, p, r);
    }
  }

  /** Single replacement substitutes the first occurrence and keeps the rest
      of the text, later occurrences included, verbatim. */
  lemma ReplaceFirstOnlyFirst(s: string, p: string, r: string)
    requires |p| > 0
    requires Contains(s, p)
    ensures |Split(s, p)| >= 2
    ensures ReplaceFirst(s, p, r) == Split(s, p)[0] + r + JoinWith(Split(s, p)[1..], p)
  {
    var i := IndexOf(s, p).value;
    var rest := s[i + |p|..];
    SplitStep(s, p, i);
    SplitThenJoin(rest, p);
    assert ([s[..i]] + Split(rest, p))[1..] == Split(rest, p);
  }

  /** Joining pieces that do not hold a one-character separator, then
      splitting on it, gives the pieces back. */
  lemma {:induction false} JoinThenSplit(parts: seq<string>, sep: string)
    requires |sep| == 1 && |parts| >= 1
    requires forall k :: 0 <= k < |parts| ==> sep[0] !in parts[k]
    ensures Split(JoinWith(parts, sep), sep) == parts
    decreases |parts|
  {
    if |parts| == 1 {
      NoSeparatorNoOccurrence(parts[0], sep);
    } else {
      var a := parts[0];
      var rest := JoinWith(parts[1..], sep);
      var s := a + sep + rest;
      assert JoinWith(parts, sep) == s;
      assert OccursAt(s, sep, |a|);
      forall j: nat | j < |a|
        ensures !OccursAt(s, sep, j)
      {
        assert s[j] == a[j];
      }
      assert IndexOf(s, sep) == Some(|a|);
      assert s[..|a|] == a;
      assert s[|a| + |sep|..] == rest;
      JoinThenSplit(parts[1..], sep);
      assert parts == [a] + parts[1..];
    }
  }

  lemma NoSeparatorNoOccurrence(s: string, sep: string)
    requires |sep| == 1 && sep[0] !in s
    ensures !Contains(s, sep)
  {
    forall j: nat | j + 1 <= |s|
      ensures !OccursAt(s, sep, j)
    {
      assert s[j..j + 1] == [s[j]];
      assert s[j] in s;
    }
  }

  /** `s.startsWith(p)`. */
  predicate StartsWith(s: string, p: string) {
    |p| <= |s| && s[..|p|] == p
  }

  lemma PrefixOfConcat(a: string, b: string)
    ensures StartsWith(a + b, a)
  {
    assert (a + b)[..|a|] == a;
  }

  lemma SuffixOfConcat(a: string, b: string)
    ensures EndsWith(a + b, b)
  {
    assert (a + b)[|a|..] == b;
  }

  /** A pattern whose first character does not appear in `a` cannot start
      inside `a`, so `a + b` holds it only if `b` does. */
  lemma NoOccurrenceAcross(a: string, b: string, p: string)
    requires |p| > 0 && p[0] !in a && !Contains(b, p)
    ensures !Contains(a + b, p)
  {
    var s := a + b;
    forall j: nat | j + |p| <= |s|
      ensures !OccursAt(s, p, j)
    {
      if j < |a| {
        assert s[j..j + |p|][0] == s[j] == a[j];
        assert a[j] in a;
      } else {
        ShiftOccurs(a, b, p, j - |a|);
      }
    }
  }

  /** Before a prefix that cannot start the pattern, the first occurrence is
      the one right after that prefix, and only it is replaced. */
  lemma ReplaceFirstAfterFreePrefix(l: string, p: string, r: string, rest: string)
    requires |p| > 0 && p[0] !in l
    ensures ReplaceFirst(l + p + rest, p, r) == l + r + rest
  {
    var s := l + p + rest;
    assert s[|l|..|l| + |p|] == p;
    forall j: nat | j < |l|
      ensures !OccursAt(s, p, j)
    {
      assert s[j] == l[j];
      assert l[j] in l;
      if j + |p| <= |s| {
        assert s[j..j + |p|][0] == s[j];
      }
    }
    FirstOccurrence(s, p, |l|);
    assert s[..|l|] == l;
    assert s[|l| + |p|..] == rest;
  }

  // ---------------------------------------------------------------------------
  // Trimming

  /** The characters JavaScript's `String.prototype.trim` removes:
      WhiteSpace and LineTerminator of ECMA-262. */
  predicate IsSpace(c: char) {
    || c == ' ' || c == '\t' || c == '\n' || c == '\r'
    || c == '\U{000B}' || c == '\U{000C}' || c == '\U{00A0}' || c == '\U{1680}'
    || ('\U{2000}' <= c <= '\U{200A}')
    || c == '\U{2028}' || c == '\U{2029}' || c == '\U{202F}' || c == '\U{205F}'
    || c == '\U{3000}' || c == '\U{FEFF}'
  }

  predicate IsBlank(s: string) {
    forall k :: 0 <= k < |s| ==> IsSpace(s[k])
  }

  function TrimStart(s: string): (r: string)
    ensures |r| <= |s| && r == s[|s| - |r|..]
    ensures forall k :: 0 <= k < |s| - |r| ==> IsSpace(s[k])
    ensures |r| > 0 ==> !IsSpace(r[0])
  {
    if |s| > 0 && IsSpace(s[0]) then TrimStart(s[1..]) else s
  }

  function TrimEnd(s: string): (r: string)
    ensures |r| <= |s| && r == s[..|r|]
    ensures forall k :: |r| <= k < |s| ==> IsSpace(s[k])
    ensures |r| > 0 ==> !IsSpace(r[|r| - 1])
  {
    if |s| > 0 && IsSpace(s[|s| - 1]) then TrimEnd(s[..|s| - 1]) else s
  }

  /** `r` is the slice of `s` starting at `i`, with only white space before
      and after it. */
  predicate SliceBetweenSpace(s: string, r: string, i: nat) {
    && i + |r| <= |s|
    && r == s[i..i + |r|]
    && IsBlank(s[..i])
    && IsBlank(s[i + |r|..])
  }

  /** JavaScript `s.trim()`: the slice left when white space is cut from
      both ends, and nothing more. */
  function Trim(s: string): (r: string)
    ensures exists i: nat :: SliceBetweenSpace(s, r, i)
    ensures r == "" <==> IsBlank(s)
    ensures |r| > 0 ==> !IsSpace(r[0]) && !IsSpace(r[|r| - 1])
  {
    var t := TrimStart(s);
    var r := TrimEnd(t);
    TrimmedIsSlice(s, t, r);
    assert SliceBetweenSpace(s, r, |s| - |t|);
    assert |r| > 0 ==> r[0] == t[0];
    r
  }

  /** Cutting white space from the front and then from the back leaves a
      slice between white space. */
  lemma TrimmedIsSlice(s: string, t: string, r: string)
    requires |t| <= |s| && t == s[|s| - |t|..]
    requires forall k :: 0 <= k < |s| - |t| ==> IsSpace(s[k])
    requires |r| <= |t| && r == t[..|r|]
    requires forall k :: |r| <= k < |t| ==> IsSpace(t[k])
    ensures SliceBetweenSpace(s, r, |s| - |t|)
  {
    var i := |s| - |t|;
    BlankBefore(s, i);
    BlankAfter(t, |r|);
    SliceOfSuffix(s, t, r, i);
  }

  /** White space up to `i` makes the prefix before `i` blank. */
  lemma BlankBefore(s: string, i: nat)
    requires i <= |s|
    requires forall k :: 0 <= k < i ==> IsSpace(s[k])
    ensures IsBlank(s[..i])
  {
    assert forall k :: 0 <= k < i ==> s[..i][k] == s[k];
  }

  /** White space from `j` on makes the suffix from `j` blank. */
  lemma BlankAfter(t: string, j: nat)
    requires j <= |t|
    requires forall k :: j <= k < |t| ==> IsSpace(t[k])
    ensures IsBlank(t[j..])
  {
    assert forall k :: 0 <= k < |t| - j ==> t[j..][k] == t[j + k];
  }

  /** A prefix of the suffix of `s` from `i` is a slice of `s`. */
  lemma SliceOfSuffix(s: string, t: string, r: string, i: nat)
    requires i <= |s| && t == s[i..] && |r| <= |t| && r == t[..|r|]
    ensures r == s[i..i + |r|] && s[i + |r|..] == t[|r|..]
  {
  }

  // ---------------------------------------------------------------------------
  // Digits

  /** The ASCII digits matched by the regular-expression class `\d`. */
  predicate IsDigit(c: char) {
    '0' <= c <= '9'
  }

  predicate AllDigits(s: string) {
    forall k :: 0 <= k < |s| ==> IsDigit(s[k])
  }

  /** JavaScript `s.replace(/\D/g, '')`: the digits of `s`, in order. */
  function KeepDigits(s: string): (r: string)
    ensures AllDigits(r)
    ensures |r| <= |s|
    ensures forall c :: IsDigit(c) ==> multiset(r)[c] == multiset(s)[c]
  {
    if |s| == 0 then ""
    else
      var init, last := s[..|s| - 1], s[|s| - 1];
      assert s == init + [last];
      if IsDigit(last) then KeepDigits(init) + [last] else KeepDigits(init)
  }

  /** Digit filtering distributes over concatenation, so the digits keep
      their original order. */
  lemma {:induction false} KeepDigitsAppend(a: string, b: string)
    ensures KeepDigits(a + b) == KeepDigits(a) + KeepDigits(b)
    decreases |b|
  {
    if |b| == 0 {
      assert a + b == a;
    } else {
      var b' := b[..|b| - 1];
      assert (a + b)[..|a + b| - 1] == a + b';
      assert (a + b)[|a + b| - 1] == b[|b| - 1];
      KeepDigitsAppend(a, b');
    }
  }

  /** A string is left unchanged by digit filtering exactly when it is all digits. */
  lemma {:induction false} KeepDigitsFixpoint(s: string)
    ensures KeepDigits(s) == s <==> AllDigits(s)
    decreases |s|
  {
    if |s| > 0 {
      var init, last := s[..|s| - 1], s[|s| - 1];
      assert s == init + [last];
      KeepDigitsFixpoint(init);
      if AllDigits(s) {
        assert AllDigits(init);
      }
    }
  }

  function DigitChar(d: nat): (c: char)
    requires d < 10
    ensures IsDigit(c)
  {
    ['0', '1', '2', '3', '4', '5', '6', '7', '8', '9'][d]
  }

  function DigitValue(c: char): nat
    requires IsDigit(c)
  {
    (c as int - '0' as int) as nat
  }

  /** The decimal rendering of a natural number (JavaScript `String(n)`). */
  function NatToText(n: nat): (r: string)
    ensures |r| >= 1 && AllDigits(r)
    ensures r[0] == '0' ==> n == 0
    decreases n
  {
    if n < 10 then [DigitChar(n)] else NatToText(n / 10) + [DigitChar(n % 10)]
  }

  /** Reads a string of decimal digits back as a number. */
  function ParseNat(s: string): nat
    requires AllDigits(s)
  {
    if |s| == 0 then 0 else ParseNat(s[..|s| - 1]) * 10 + DigitValue(s[|s| - 1])
  }

  lemma {:induction false} NatToTextRoundTrip(n: nat)
    ensures ParseNat(NatToText(n)) == n
    decreases n
  {
    if n >= 10 {
      NatToTextRoundTrip(n / 10);
      var t := NatToText(n);
      assert t[..|t| - 1] == NatToText(n / 10);
    }
  }

  /** The decimal rendering of an integer, with a leading `-` when negative. */
  function IntToText(i: int): (r: string)
    ensures |r| >= 1
    ensures i < 0 <==> r[0] == '-'
  {
    if i < 0 then "-" + NatToText(-i) else NatToText(i)
  }

  /** Reads an optionally negative decimal integer; `None` for anything else. */
  function ParseInt(s: string): (r: Option<int>)
    ensures r.Some? && r.value < 0 ==> |s| > 0 && s[0] == '-'
  {
    if |s| > 0 && s[0] == '-' && AllDigits(s[1..]) then Some(0 - ParseNat(s[1..]) as int)
    else if AllDigits(s) then Some(ParseNat(s))
    else None
  }

  /** Every integer's rendering reads back as that integer. */
  lemma IntToTextRoundTrip(i: int)
    ensures ParseInt(IntToText(i)) == Some(i)
  {
    if i < 0 {
      var t := NatToText(-i);
      NatToTextRoundTrip(-i);
      assert IntToText(i) == "-" + t;
      assert ("-" + t)[1..] == t;
    } else {
      var t := NatToText(i);
      NatToTextRoundTrip(i);
      assert IntToText(i) == t;
      assert t[0] != '-';
    }
  }
}

=== FILE: worker.dfy ===
/** The worker process `sidecar/index.js`: the state it keeps about its
    WhatsApp client, the client's events, the dispatch of front-end
    commands, the group list it extracts from chats, the bounded retries of
    that extraction, and the chat id a message goes to. The WhatsApp client,
    the browser page and the socket are replaced by the answers they give,
    passed in as parameters, and by the list of frames the worker writes. */
module Worker {
  import opened Wrappers
  import opened Text

  // ---------------------------------------------------------------------------
  // Chats and groups

  /** A chat's `id` object, with its `_serialized` text when present. */
  datatype WaId = WaId(serialized: Option<string>)

  /** The fields of a chat the group filter reads. */
  datatype Chat = Chat(
    /** `chat.isGroup === true` */
    isGroup: bool,
    id: Option<WaId>,
    /** `chat._serialized`, read beside `chat.id._serialized` */
    topSerialized: Option<string>,
    name: Option<string>,
    formattedTitle: Option<string>)

  /** A group's id: the serialized text, or the whole id object when that text is falsy. */
  datatype GroupId = IdText(text: string) | IdObject(obj: WaId)

  datatype GroupEntry = GroupEntry(id: GroupId, name: string)

  const GroupSuffix := "@g.us"
  const UserSuffix := "@c.us"
  const UnnamedGroup := "Unnamed Group"

  predicate GroupIdText(o: Option<string>) {
    Truthy(o) && EndsWith(o.value, GroupSuffix)
  }

  /** The filter of lines 207-213. */
  predicate IsGroupChat(c: Chat) {
    || c.isGroup
    || (c.id.Some? && GroupIdText(c.topSerialized))
    || (c.id.Some? && GroupIdText(c.id.value.serialized))
  }

  /** `chat.name || chat.formattedTitle || 'Unnamed Group'`. */
  function GroupName(c: Chat): (n: string)
    ensures n != ""
    ensures Truthy(c.name) ==> n == c.name.value
    ensures !Truthy(c.name) && Truthy(c.formattedTitle) ==> n == c.formattedTitle.value
    ensures !Truthy(c.name) && !Truthy(c.formattedTitle) ==> n == UnnamedGroup
  {
    Or(c.name, Or(c.formattedTitle, UnnamedGroup))
  }

  /** The map of lines 214-217 on one kept chat; `None` when the chat has no
      `id`, where reading `chat.id._serialized` throws. */
  function GroupOf(c: Chat): (g: Option<GroupEntry>)
    ensures g.None? <==> c.id.None?
    ensures g.Some? ==> g.value.name == GroupName(c)
    ensures g.Some? && Truthy(c.id.value.serialized) ==> g.value.id == IdText(c.id.value.serialized.value)
  {
    match c.id
    case None => None
    case Some(w) => Some(GroupEntry(if Truthy(w.serialized) then IdText(w.serialized.value) else IdObject(w), GroupName(c)))
  }

  function KeptChats(chats: seq<Chat>): (kept: seq<Chat>)
    ensures |kept| <= |chats|
    ensures forall k :: 0 <= k < |kept| ==> IsGroupChat(kept[k]) && kept[k] in chats
    ensures forall c :: c in chats && IsGroupChat(c) ==> c in kept
    decreases |chats|
  {
    if |chats| == 0 then []
    else
      var rest := KeptChats(chats[1..]);
      assert forall c :: c in chats[1..] ==> c in chats;
      if IsGroupChat(chats[0]) then [chats[0]] + rest else rest
  }

  /** The filter keeps the group chats in their original order: it
      distributes over concatenation, and a single chat is kept exactly when
      it is a group chat. */
  lemma {:induction false} KeptChatsAppend(a: seq<Chat>, b: seq<Chat>)
    ensures KeptChats(a + b) == KeptChats(a) + KeptChats(b)
    ensures |a| == 1 ==> KeptChats(a) == (if IsGroupChat(a[0]) then a else [])
    decreases |a|
  {
    if |a| == 0 {
      assert a + b == b;
    } else {
      assert (a + b)[1..] == a[1..] + b;
      assert (a + b)[0] == a[0];
      KeptChatsAppend(a[1..], b);
      if |a| == 1 {
        assert a[1..] == [];
      }
    }
  }

  /** Filter then map (lines 206-217); `None` when the map throws. */
  function Classify(chats: seq<Chat>): (r: Option<seq<GroupEntry>>)
    ensures r.None? <==> exists c :: c in KeptChats(chats) && c.id.None?
    ensures r.Some? ==> |r.value| == |KeptChats(chats)|
    ensures r.Some? ==> forall k :: 0 <= k < |r.value| ==> Some(r.value[k]) == GroupOf(KeptChats(chats)[k])
  {
    MapGroups(KeptChats(chats))
  }

  function MapGroups(kept: seq<Chat>): (r: Option<seq<GroupEntry>>)
    ensures r.None? <==> exists c :: c in kept && c.id.None?
    ensures r.Some? ==> |r.value| == |kept|
    ensures r.Some? ==> forall k :: 0 <= k < |kept| ==> Some(r.value[k]) == GroupOf(kept[k])
    decreases |kept|
  {
    if |kept| == 0 then Some([])
    else
      match GroupOf(kept[0])
      case None => None
      case Some(g) =>
        match MapGroups(kept[1..])
        case None =>
          assert forall c :: c in kept[1..] ==> c in kept;
          None
        case Some(gs) =>
          assert forall c :: c in kept ==> c == kept[0] || c in kept[1..];
          Some([g] + gs)
  }

  /** A chat is kept exactly when it says it is a group or either of its
      serialized ids ends in `@g.us`, and a chat with a group id still
      needs an `id` object. */
  lemma KeptIffGroup(c: Chat, chats: seq<Chat>)
    requires c in chats
    ensures c in KeptChats(chats) <==> IsGroupChat(c)
    ensures !c.isGroup && c.id.None? ==> c !in KeptChats(chats)
  {
  }

  // ---------------------------------------------------------------------------
  // getGroups

  /** What one attempt of `getGroups` meets: the `getChats` answer (`None`
      when it failed or timed out), the deep browser extraction (`None` when
      it threw), and whether the client is still there and ready after the
      wait before the next attempt. */
  datatype Attempt = Attempt(chats: Option<seq<Chat>>, deep: Option<seq<GroupEntry>>, readyAfterWait: bool)

  /** The groups returned and how many attempts queried the client. */
  datatype Fetch = Fetch(groups: seq<GroupEntry>, queries: nat)

  const MaxRetry: nat := 4

  /** `getGroups(retryCount)` (lines 184-260), with `ready` the client check of line 185. */
  function GetGroups(ready: bool, attempts: nat -> Attempt, retryCount: nat): (f: Fetch)
    ensures !ready ==> f == Fetch([], 0)
    ensures retryCount <= MaxRetry ==> f.queries <= MaxRetry + 1 - retryCount
    ensures retryCount > MaxRetry ==> f.queries <= 1
    ensures ready ==> f.queries >= 1
    decreases if retryCount < MaxRetry then MaxRetry - retryCount else 0
  {
    if !ready then Fetch([], 0)
    else
      var a := attempts(retryCount);
      match Classify(a.chats.GetOr([]))
      case None => Fetch([], 1)
      case Some(standard) =>
        var groups :=
          if |standard| == 0 && a.deep.Some? && |a.deep.value| > 0 then a.deep.value else standard;
        if |groups| == 0 && retryCount < MaxRetry then
          var next := GetGroups(a.readyAfterWait, attempts, retryCount + 1);
          Fetch(next.groups, next.queries + 1)
        else Fetch(groups, 1)
  }

  /** When the standard extraction finds nothing but the browser does, the
      browser's list is the answer and there is no retry. */
  lemma DeepSyncFillsEmptyList(attempts: nat -> Attempt)
    requires attempts(0).chats.Some? && Classify(attempts(0).chats.value) == Some([])
    requires attempts(0).deep.Some? && |attempts(0).deep.value| > 0
    ensures GetGroups(true, attempts, 0) == Fetch(attempts(0).deep.value, 1)
  {
  }

  /** When every attempt finds nothing and the client stays ready, the
      client is queried exactly five times and the answer is empty. */
  lemma {:induction false} NothingFoundMeansFiveAttempts(attempts: nat -> Attempt, retryCount: nat)
    requires retryCount <= MaxRetry
    requires forall k :: attempts(k) == Attempt(None, None, true)
    ensures GetGroups(true, attempts, retryCount) == Fetch([], MaxRetry + 1 - retryCount)
    decreases MaxRetry - retryCount
  {
    assert Classify([]) == Some([]);
    if retryCount < MaxRetry {
      NothingFoundMeansFiveAttempts(attempts, retryCount + 1);
    }
  }

  /** What one attempt finds: `None` when the map throws, else the standard
      list, or the deep list when the standard one is empty and the deep one
      is not. */
  function AttemptGroups(a: Attempt): Option<seq<GroupEntry>> {
    match Classify(a.chats.GetOr([]))
    case None => None
    case Some(standard) =>
      Some(if |standard| == 0 && a.deep.Some? && |a.deep.value| > 0 then a.deep.value else standard)
  }

  /** An attempt that finds nothing and leaves the client ready, so that
      `getGroups` tries again. */
  predicate FoundNothingStillReady(a: Attempt) {
    AttemptGroups(a) == Some([]) && a.readyAfterWait
  }

  /** Groups found on a later attempt are what `getGroups` returns, after
      one query per attempt from `retryCount` up to that one. */
  lemma {:induction false} RetryReturnsLaterGroups(attempts: nat -> Attempt, retryCount: nat, k: nat, g: seq<GroupEntry>)
    requires retryCount <= k <= MaxRetry
    requires forall j :: retryCount <= j < k ==> FoundNothingStillReady(attempts(j))
    requires AttemptGroups(attempts(k)) == Some(g) && |g| > 0
    ensures GetGroups(true, attempts, retryCount) == Fetch(g, k - retryCount + 1)
    decreases k - retryCount
  {
    if retryCount < k {
      assert FoundNothingStillReady(attempts(retryCount));
      RetryReturnsLaterGroups(attempts, retryCount + 1, k, g);
    }
  }

  /** The deep extraction is only consulted when the standard one finds
      nothing. */
  lemma DeepOnlyWhenEmpty(attempts: nat -> Attempt, standard: seq<GroupEntry>)
    requires attempts(0).chats.Some? && Classify(attempts(0).chats.value) == Some(standard)
    requires |standard| > 0
    ensures GetGroups(true, attempts, 0).groups == standard
  {
  }

  // ---------------------------------------------------------------------------
  // Worker state and output

  /** The WhatsApp client; `ownWid` is `client.info.wid._serialized`, which
      the client library fills in before it emits `ready`, and is absent
      until then. */
  datatype WaClient = WaClient(ownWid: Option<string>)

  /** The module-level `client`, `isReady` and `lastQR` (lines 23, 113-114). */
  datatype WorkerState = WorkerState(client: Option<WaClient>, isReady: bool, lastQR: Option<string>)

  const Boot := WorkerState(None, false, None)

  /** The frames the worker writes. */
  datatype Event =
    | Ready
    | Qr(code: string)
    | Groups(groups: seq<GroupEntry>)
    | FetchingGroups(on: bool)
    | Disconnected
    | LogoutPending
    | MsgSent(target: string, message: string)
    | Error(text: string)

  /** To the socket that sent the command, or to every open socket. */
  datatype Frame = ToSender(ev: Event) | ToAll(ev: Event)

  datatype Effect = Effect(state: WorkerState, out: seq<Frame>)

  /** `isReady` and a pending QR code exclude each other. */
  predicate Coherent(st: WorkerState) {
    st.isReady ==> st.lastQR.None?
  }

  // ---------------------------------------------------------------------------
  // Client events (lines 152-179)

  /** The client's events; `ready` carries the account id the library has
      stored in `client.info` by then. */
  datatype ClientEvent = OnQr(code: string) | OnReady(wid: string) | OnAuthFailure(msg: string) | OnDisconnected

  /** A client event; `attempts` answers the group fetch the `ready` handler makes. */
  function OnClientEvent(st: WorkerState, e: ClientEvent, attempts: nat -> Attempt): (r: Effect)
    ensures e.OnQr? ==> r.state == st.(lastQR := Some(e.code), isReady := false) && r.out == [ToAll(Qr(e.code))]
    ensures e.OnReady? ==>
      r.state == st.(isReady := true, lastQR := None,
                     client := if st.client.Some? then Some(WaClient(Some(e.wid))) else None)
    ensures e.OnReady? ==> r.out == [ToAll(Ready), ToAll(FetchingGroups(true)),
                                     ToAll(Groups(GetGroups(st.client.Some?, attempts, 0).groups)),
                                     ToAll(FetchingGroups(false))]
    ensures e.OnAuthFailure? ==> r.state == st && r.out == [ToAll(Error(e.msg))]
    ensures e.OnDisconnected? ==> r.state == st.(isReady := false, client := None) && r.out == [ToAll(Disconnected)]
  {
    match e
    case OnQr(code) => Effect(st.(lastQR := Some(code), isReady := false), [ToAll(Qr(code))])
    case OnReady(wid) =>
      var client := if st.client.Some? then Some(WaClient(Some(wid))) else None;
      var st' := st.(isReady := true, lastQR := None, client := client);
      var groups := GetGroups(st'.client.Some? && st'.isReady, attempts, 0).groups;
      Effect(st', [ToAll(Ready), ToAll(FetchingGroups(true)), ToAll(Groups(groups)), ToAll(FetchingGroups(false))])
    case OnAuthFailure(msg) =>
      Effect(st, [ToAll(Error(msg))])
    case OnDisconnected =>
      Effect(st.(isReady := false, client := None), [ToAll(Disconnected)])
  }

  /** A QR code followed by a successful login leaves no code pending. */
  lemma QrThenReady(st: WorkerState, code: string, wid: string, attempts: nat -> Attempt)
    ensures var s1 := OnClientEvent(st, OnQr(code), attempts).state;
      && s1.lastQR == Some(code) && !s1.isReady
      && var s2 := OnClientEvent(s1, OnReady(wid), attempts).state;
         s2.isReady && s2.lastQR.None? && s2.client == (if st.client.Some? then Some(WaClient(Some(wid))) else None)
  {
  }

  // ---------------------------------------------------------------------------
  // initWhatsApp (lines 116-182)

  /** With a client already there nothing new is created and the sender is
      told the current state; otherwise a fresh client, not yet logged in, is
      created and nothing is written until it raises events. */
  function InitWhatsApp(st: WorkerState, attempts: nat -> Attempt): (r: Effect)
    ensures st.client.Some? ==> r.state == st
    ensures st.client.Some? && st.isReady ==>
      r.out == [ToSender(Ready), ToSender(Groups(GetGroups(true, attempts, 0).groups))]
    ensures st.client.Some? && !st.isReady && Truthy(st.lastQR) ==> r.out == [ToSender(Qr(st.lastQR.value))]
    ensures st.client.Some? && !st.isReady && !Truthy(st.lastQR) ==> r.out == []
    ensures st.client.None? ==> r.state == st.(client := Some(WaClient(None))) && r.out == []
  {
    if st.client.Some? then
      if st.isReady then
        Effect(st, [ToSender(Ready), ToSender(Groups(GetGroups(st.client.Some? && st.isReady, attempts, 0).groups))])
      else if Truthy(st.lastQR) then Effect(st, [ToSender(Qr(st.lastQR.value))])
      else Effect(st, [])
    else Effect(st.(client := Some(WaClient(None))), [])
  }

  /** Calling `initWhatsApp` again never creates a second client and never
      changes the state. */
  lemma InitIsIdempotent(st: WorkerState, attempts: nat -> Attempt)
    ensures var s1 := InitWhatsApp(st, attempts).state;
      s1.client.Some? && InitWhatsApp(s1, attempts).state == s1
  {
  }

  // ---------------------------------------------------------------------------
  // sendMessage (lines 305-332)

  /** `{ targetType, target, message }` as the front end sends it. */
  datatype MessagePayload = MessagePayload(targetType: string, target: string, message: string)

  /** The chat id for a phone-number target (lines 322-323). */
  function ChatIdForNumber(target: string): (id: string)
    ensures EndsWith(id, UserSuffix)
    ensures id[..|id| - |UserSuffix|] == KeepDigits(target)
    ensures AllDigits(id[..|id| - |UserSuffix|])
  {
    var id := KeepDigits(target) + UserSuffix;
    assert id[|id| - |UserSuffix|..] == UserSuffix;
    assert id[..|id| - |UserSuffix|] == KeepDigits(target);
    id
  }

  /** Formatting characters in a number do not matter: dropping a
      non-digit gives the same chat, and so does writing only the digits. */
  lemma ChatIdIgnoresFormatting(a: string, c: char, b: string)
    requires !IsDigit(c)
    ensures ChatIdForNumber(a + [c] + b) == ChatIdForNumber(a + b)
    ensures ChatIdForNumber(KeepDigits(a)) == ChatIdForNumber(a)
  {
    KeepDigitsAppend(a + [c], b);
    KeepDigitsAppend(a, [c]);
    KeepDigitsAppend(a, b);
    assert KeepDigits([c]) == KeepDigits([]) + [];
    KeepDigitsFixpoint(KeepDigits(a));
  }

  /** The first chat that is a group named or titled `name`. */
  function FirstNamed(chats: seq<Chat>, name: string): (k: Option<nat>)
    ensures k.Some? ==> k.value < |chats| && chats[k.value].isGroup
    ensures k.Some? ==> chats[k.value].name == Some(name) || chats[k.value].formattedTitle == Some(name)
    ensures k.None? ==> forall i :: 0 <= i < |chats| ==>
      !(chats[i].isGroup && (chats[i].name == Some(name) || chats[i].formattedTitle == Some(name)))
    ensures k.Some? ==> forall i :: 0 <= i < k.value ==>
      !(chats[i].isGroup && (chats[i].name == Some(name) || chats[i].formattedTitle == Some(name)))
    decreases |chats|
  {
    if |chats| == 0 then None
    else if chats[0].isGroup && (chats[0].name == Some(name) || chats[0].formattedTitle == Some(name)) then Some(0)
    else match FirstNamed(chats[1..], name)
      case None => None
      case Some(k) => Some(k + 1)
  }

  /** `findGroupIdByName` (lines 270-303): the first matching chat of
      `getChats` (`None` when that failed), else the browser lookup's answer.
      Reading the id of a match without an `id` throws inside the first
      `try`, so the browser lookup answers then too; a match whose id has no
      text yields that missing text. */
  function FindGroupIdByName(name: string, chats: Option<seq<Chat>>, deep: Option<string>): (r: Option<string>)
    ensures chats.Some? && FirstNamed(chats.value, name).Some? && chats.value[FirstNamed(chats.value, name).value].id.Some? ==>
      r == chats.value[FirstNamed(chats.value, name).value].id.value.serialized
    ensures (chats.None? || FirstNamed(chats.value, name).None?
             || chats.value[FirstNamed(chats.value, name).value].id.None?) ==>
      r == (if Truthy(deep) then deep else None)
  {
    var primary := if chats.Some? then FirstNamed(chats.value, name) else None;
    if primary.Some? && chats.value[primary.value].id.Some? then chats.value[primary.value].id.value.serialized
    else if Truthy(deep) then deep
    else None
  }

  /** The answers `sendMessage` gets from the outside: the two group lookups
      and whether `client.sendMessage` resolved, with its error text otherwise. */
  datatype SendWorld = SendWorld(lookupChats: Option<seq<Chat>>, deepLookup: Option<string>,
                                 delivered: bool, failure: string)

  /** The chat `sendMessage` resolves to, or the error it throws. */
  function ChatIdFor(client: WaClient, p: MessagePayload, w: SendWorld): (r: Result<string>)
    ensures p.targetType == "self" ==> (r.Ok? <==> client.ownWid.Some?)
    ensures p.targetType == "self" && r.Ok? ==> r.value == client.ownWid.value
    ensures p.targetType == "group" ==>
      r.Ok? == Truthy(FindGroupIdByName(p.target, w.lookupChats, w.deepLookup))
    ensures p.targetType == "group" && r.Err? ==> r.error == "Error: Group '" + p.target + "' not found (lookup failed)"
    ensures p.targetType != "self" && p.targetType != "group" ==> r == Ok(ChatIdForNumber(p.target))
  {
    if p.targetType == "self" then
      match client.ownWid
      case Some(w) => Ok(w)
      case None => Err(w.failure)
    else if p.targetType == "group" then
      var id := FindGroupIdByName(p.target, w.lookupChats, w.deepLookup);
      if Truthy(id) then Ok(id.value) else Err("Error: Group '" + p.target + "' not found (lookup failed)")
    else Ok(ChatIdForNumber(p.target))
  }

  /** What `sendMessage` did: the chat passed to `client.sendMessage`, if
      any, and the frames written. */
  datatype Delivery = Delivery(chatId: Option<string>, out: seq<Frame>)

  /** `sendMessage` (lines 305-332): nothing without a client; otherwise the
      message goes to the resolved chat, and the sender hears `MSG_SENT`
      exactly when `client.sendMessage` resolved, or the error otherwise. */
  function SendMessage(st: WorkerState, p: MessagePayload, w: SendWorld): (d: Delivery)
    ensures st.client.None? ==> d == Delivery(None, [])
    ensures st.client.Some? ==> |d.out| == 1 && d.out[0].ToSender?
    ensures st.client.Some? ==>
      && (d.chatId.Some? <==> ChatIdFor(st.client.value, p, w).Ok?)
      && (d.chatId.Some? ==> d.chatId.value == ChatIdFor(st.client.value, p, w).value)
    ensures st.client.Some? && d.chatId.None? ==>
      d.out[0].ev == Error(ChatIdFor(st.client.value, p, w).error)
    ensures st.client.Some? && d.chatId.Some? ==>
      (d.out[0].ev.MsgSent? <==> w.delivered)
      && (w.delivered ==> d.out[0].ev == MsgSent(p.target, p.message))
      && (!w.delivered ==> d.out[0].ev == Error(w.failure))
    ensures d.out != [] && d.out[0].ev.MsgSent? ==> d.chatId.Some? && w.delivered
  {
    match st.client
    case None => Delivery(None, [])
    case Some(c) =>
      match ChatIdFor(c, p, w)
      case Err(e) => Delivery(None, [ToSender(Error(e))])
      case Ok(id) =>
        if w.delivered then Delivery(Some(id), [ToSender(MsgSent(p.target, p.message))])
        else Delivery(Some(id), [ToSender(Error(w.failure))])
  }

  /** A number target is sent to its digits at `@c.us`, whatever the formatting. */
  lemma NumberTargetChatId(st: WorkerState, p: MessagePayload, w: SendWorld)
    requires st.client.Some? && p.targetType != "self" && p.targetType != "group"
    ensures SendMessage(st, p, w).chatId == Some(KeepDigits(p.target) + UserSuffix)
  {
  }

  /** A group that cannot be found is reported, and nothing is sent. */
  lemma UnknownGroupIsReported(st: WorkerState, p: MessagePayload, w: SendWorld)
    requires st.client.Some? && p.targetType == "group"
    requires !Truthy(FindGroupIdByName(p.target, w.lookupChats, w.deepLookup))
    ensures SendMessage(st, p, w) ==
      Delivery(None, [ToSender(Error("Error: Group '" + p.target + "' not found (lookup failed)"))])
  {
  }

  // ---------------------------------------------------------------------------
  // handleCommand (lines 34-111)

  /** Everything a command may ask of the outside world. */
  datatype World = World(attempts: nat -> Attempt, send: SendWorld)

  /** `LOGOUT` up to line 84: the client is dropped and not ready. */
  function LogoutCleanup(st: WorkerState): (r: WorkerState)
    ensures r.client.None? && !r.isReady && r.lastQR == st.lastQR
  {
    st.(client := None, isReady := false)
  }

  function HandleCommand(st: WorkerState, kind: string, p: MessagePayload, world: World): (r: Effect)
    ensures kind == "INIT" ==> r == InitWhatsApp(st, world.attempts)
    ensures kind == "REFRESH_GROUPS" ==>
      && r.state == st
      && r.out == [ToAll(FetchingGroups(true)),
                   ToSender(Groups(GetGroups(st.client.Some? && st.isReady, world.attempts, 0).groups)),
                   ToAll(FetchingGroups(false))]
    ensures kind == "LOGOUT" ==>
      && |r.out| >= 2 && r.out[..2] == [ToSender(LogoutPending), ToAll(Disconnected)]
      && r.state == InitWhatsApp(LogoutCleanup(st), world.attempts).state
    ensures kind == "SEND_MESSAGE" ==> r.state == st && r.out == SendMessage(st, p, world.send).out
    ensures kind !in {"INIT", "REFRESH_GROUPS", "LOGOUT", "SEND_MESSAGE"} ==> r == Effect(st, [])
  {
    if kind == "INIT" then InitWhatsApp(st, world.attempts)
    else if kind == "REFRESH_GROUPS" then
      var groups := GetGroups(st.client.Some? && st.isReady, world.attempts, 0).groups;
      Effect(st, [ToAll(FetchingGroups(true)), ToSender(Groups(groups)), ToAll(FetchingGroups(false))])
    else if kind == "LOGOUT" then
      var reinit := InitWhatsApp(LogoutCleanup(st), world.attempts);
      Effect(reinit.state, [ToSender(LogoutPending), ToAll(Disconnected)] + reinit.out)
    else if kind == "SEND_MESSAGE" then
      Effect(st, SendMessage(st, p, world.send).out)
    else Effect(st, [])
  }

  /** After `LOGOUT` a fresh client waits for a new login: not ready, with
      no id of its own, and the old client is gone. */
  lemma LogoutStartsAfresh(st: WorkerState, p: MessagePayload, world: World)
    ensures var r := HandleCommand(st, "LOGOUT", p, world);
      && r.state.client == Some(WaClient(None)) && !r.state.isReady
      && r.out == [ToSender(LogoutPending), ToAll(Disconnected)]
  {
  }

  /** The pending QR code survives a logout, so an `INIT` arriving before the
      new client's first code replays the old one. */
  lemma StaleQrAfterLogout(st: WorkerState, p: MessagePayload, world: World, code: string)
    requires st.lastQR == Some(code) && code != ""
    ensures var s1 := HandleCommand(st, "LOGOUT", p, world).state;
      HandleCommand(s1, "INIT", p, world).out == [ToSender(Qr(code))]
  {
  }

  /** Once the client created by `INIT` has logged in as `wid`, a message
      for `self` goes to the chat `wid`, and the sender hears `MSG_SENT` when
      the delivery succeeds. */
  lemma SelfMessageAfterLogin(p: MessagePayload, world: World, wid: string)
    requires p.targetType == "self"
    ensures var s1 := HandleCommand(Boot, "INIT", p, world).state;
      var s2 := OnClientEvent(s1, OnReady(wid), world.attempts).state;
      && SendMessage(s2, p, world.send).chatId == Some(wid)
      && (world.send.delivered ==>
            HandleCommand(s2, "SEND_MESSAGE", p, world).out == [ToSender(MsgSent(p.target, p.message))])
  {
  }

  /** Every command and every client event keeps `isReady` and a pending
      code apart. */
  lemma CoherenceKept(st: WorkerState, kind: string, p: MessagePayload, world: World, e: ClientEvent)
    requires Coherent(st)
    ensures Coherent(HandleCommand(st, kind, p, world).state)
    ensures Coherent(OnClientEvent(st, e, world.attempts).state)
  {
  }
}

=== FILE: wrappers.dfy ===
/** Failure-compatible wrappers shared by every module of the model. */
module Wrappers {

  /** A value that may be absent (JavaScript `null`/`undefined`, Rust `None`). */
  datatype Option<+T> = None | Some(value: T) {
    function GetOr(default: T): T {
      match this
      case Some(v) => v
      case None => default
    }
  }

  /** Rust's `Result<T, String>`: a value or an error message. */
  datatype Result<+T> = Ok(value: T) | Err(error: string)
}
